=== FILE: README.md ===
# starter-react-component, modelled in Dafny

`starter-react-component init Name` turns the working directory into a
publishable React component project. It makes the directories `./src`,
`./lib`, `./demo` and `./__tests__`, then assigns eight fields of the
`package.json` that `npm init -y` left there. It creates `.eslintrc` and
`.babelrc`. It writes the README, `.npmignore`, two webpack configurations,
the component, its entry point, a demo page and a demo. Then it writes a
Jest test for every component it finds in `./src` whose test file is
missing. Last, it runs `npm install` for the development dependencies. Every helper it uses is
careful not to clobber: `createFile` and `createJSON` write only where
nothing exists, and `createDirectories` skips paths that exist.
`fixJSON` rewrites one top-level key of a JSON file and keeps the rest.

This project models that engine, `bin/index.js`, against an abstract
working directory, and proves what the helpers and the whole run promise.

- `Filesystem` holds the working directory as a value, a `Disk`. A disk is
  a set of directory paths and a map from file paths to contents. It also
  holds each helper of the program as a function from the disk to the new
  disk and an `Outcome`. `Aborted(error)` is the exception a Node.js call
  throws. Nothing catches it, so it ends the run with the disk as it stands.
- `Engine.Project` is the same working directory as an object whose
  `dirs` and `files` fields the helpers change in place. Each method, from
  `fs.writeFileSync` up to `setupReact`, is proved to end in exactly the
  state and outcome its `Filesystem` or `Scaffold` function describes.
  `createDirectories` and `generateComponentTestFiles` keep their loops.
- `Scaffold` is the order of steps of `setupReact` and the component-test
  generation, with the lemmas about a whole run. Those lemmas cover success
  on a fresh project, the manifest fields, the generated files and tests,
  idempotence, and the run without a manifest.
- `Cli` is `main`'s dispatch on `process.argv` and the exit status.
- `Json` is a JSON object as an ordered list of members, because
  `JSON.stringify` writes keys in insertion order. It provides `json[k]`
  (`Get`), `json[k] = v` (`Set`) and a list of assignments (`Patch`).
- `PathNames` and `Strings` give the path arithmetic and the
  `path.parse(x).name` stem of a directory entry. They also give
  `includes`, `lastIndexOf`, and the decimal digits of an integer.
- `Json.DisplayOrUndefined` is how the README template interpolates the
  package name it reads (`bin/index.js:229-234`). It renders `undefined`
  and the JSON values the way `String(x)` does. Numbers go through
  `Strings.IntToDecimal`.
- `Templates` holds the fixed data: the directory list, the manifest
  values, the ESLint and Babel objects, and the text of every generator.
  A generated file holds `Generated(template)`, which stands for the text
  `Render(template)`. The proofs never need to unfold that text.

The manifest value the program stores under "keywords" is the object
`{"keywords": [...]}`, not the array itself, because the constant
`keywords` at `bin/index.js:148-150` wraps the array. The model keeps it as
written.

The reference functions that the Engine methods are proved against, and that the lemmas below
are about, model these lines:
- `Filesystem.WriteFile`: `bin/index.js:474`
- `Filesystem.CreateFile`: `bin/index.js:472-477`
- `Filesystem.CreateJson`: `bin/index.js:479-484`
- `Filesystem.ReadJson`: `bin/index.js:487`
- `Filesystem.FixJson`: `bin/index.js:486-491`
- `Filesystem.GetJsonValueByKey`: `bin/index.js:493-496`
- `Filesystem.MakeDirectory`: `bin/index.js:453`
- `Filesystem.CreateDirectories`: `bin/index.js:450-457`
- `Filesystem.ReadDir` and `Filesystem.GetFileNames`: `bin/index.js:443-448`
- `Scaffold.GenerateComponentTestFiles`: `bin/index.js:408-420`
- `Scaffold.Prepare`: `bin/index.js:183-215`
- `Scaffold.Generate`: `bin/index.js:216-224`
- `Scaffold.Setup`: `bin/index.js:182-226`
- `Json.Get`: `bin/index.js:495`
- `Json.Set`: `bin/index.js:488`
- `Json.Patch` and `Json.LastAssigned`: `bin/index.js:185-196`
- `Json.Display`, `Json.JoinItems` and `Json.DisplayOrUndefined`: `bin/index.js:229-234`
- `Strings.IntToDecimal` and `Strings.NatToDecimal`: `bin/index.js:229-234`
- `Strings.Contains` and `Strings.LastIndexOf`: `bin/index.js:412-413`
- `PathNames.Parent` and `PathNames.BaseName`: `bin/index.js:443-448` and `bin/index.js:472-477`
- `PathNames.Stem`: `bin/index.js:412-416`
- `Scaffold.TestPath` and `Scaffold.TestStem`: `bin/index.js:417`
- `Scaffold.IsComponent` and `Scaffold.Components`: `bin/index.js:410-416`
- `Scaffold.MissingTests`, `Scaffold.TestFiles` and `Scaffold.TestsWritten`: `bin/index.js:415-419`
- `Scaffold.FixJsonAll`: `bin/index.js:185-196`
- `Scaffold.CreateFiles`, `Scaffold.GeneratedFiles` and `Scaffold.GeneratedPaths`: `bin/index.js:216-223`
- `Cli.Parse` and `Cli.Execute`: `bin/index.js:154-176`
- `Templates.ProjectDirs`: `bin/index.js:9`
- `Templates.ManifestPatches` with `Description`, `Repository`, `JestConfig`, `Scripts` and `Keywords`: `bin/index.js:67-96`, `bin/index.js:148-150` and `bin/index.js:185-196`
- `Templates.EslintConfig` and `Templates.BabelConfig`: `bin/index.js:97-147` and `bin/index.js:197-215`
- `Templates.Render`: the text of each generated file
- the `Templates` texts:
  - `ReadmeText`: `bin/index.js:228-248`
  - `NpmignoreText`: `bin/index.js:250-260`
  - `WebpackConfigText`: `bin/index.js:262-307`
  - `WebpackDemoConfigText`: `bin/index.js:309-344`
  - `IndexTsText`: `bin/index.js:346-351`
  - `DemoHtmlText`: `bin/index.js:353-367`
  - `DemoTsxText`: `bin/index.js:369-384`
  - `ComponentTsxText`: `bin/index.js:386-406`
  - `ComponentTestCode`: `bin/index.js:422-441`

Their properties are stated by the rows that follow.

## Model

| member | source | states |
|---|---|---|
| Engine.Project.constructor | bin/index.js:6-7 | the object starts as the given working directory |
| Engine.Project.ExistsSync | bin/index.js:473 | `fs.existsSync` is true for a file or a directory at the path |
| Engine.Project.WriteFileSync | bin/index.js:474 | `fs.writeFileSync` stores the content; it throws when the path is a directory or its directory does not exist, and then changes nothing |
| Engine.Project.MkdirSync | bin/index.js:452-453 | `fs.mkdirSync`, called only where nothing exists yet (line 452), adds the directory inside an existing one, otherwise throws and changes nothing |
| Engine.Project.ReadJsonFile | bin/index.js:486-487 | `JSON.parse(fs.readFileSync(p))` gives the stored object, or the error for a missing path, a directory, or a file that is not JSON |
| Engine.Project.CreateFile | bin/index.js:472-477 | the method ends in exactly the state and outcome of `Filesystem.CreateFile` |
| Engine.Project.CreateJson | bin/index.js:479-484 | the method ends in exactly the state and outcome of `Filesystem.CreateJson` |
| Engine.Project.FixJson | bin/index.js:486-491 | the method ends in exactly the state and outcome of `Filesystem.FixJson` |
| Engine.Project.GetJsonValueByKey | bin/index.js:493-496 | reading a key fails exactly when the file cannot be read as JSON, and gives a value exactly when the key is one of the object's keys |
| Engine.Project.GetFileNames | bin/index.js:443-448 | the listing is empty for a missing directory, fails on a file, and never names an entry containing '/' |
| Engine.Project.CreateDirectories | bin/index.js:450-457 | the loop over the list ends in exactly the state and outcome of `Filesystem.CreateDirectories` |
| Engine.Project.GenerateComponentTestFiles | bin/index.js:408-420 | the loop over the `./src` listing, in any order, ends in exactly the state and outcome of `Scaffold.GenerateComponentTestFiles` |
| Engine.Project.GenerateReadme | bin/index.js:228-248 | reads the package name (an unreadable manifest throws and changes nothing) and creates `README.md` with the component and package names |
| Engine.Project.GenerateNpmignore | bin/index.js:250-260 | creates `.npmignore` unless something is there |
| Engine.Project.GenerateWebpackConfig | bin/index.js:262-307 | creates `webpack.config.js` for the component unless something is there |
| Engine.Project.GenerateWebpackDemoConfig | bin/index.js:309-344 | creates `webpack.demo.config.js` for the component unless something is there |
| Engine.Project.GenerateIndexJs | bin/index.js:346-351 | creates `./src/index.ts` unless something is there |
| Engine.Project.GenerateDemoHtml | bin/index.js:353-367 | creates `./demo/index.html` unless something is there |
| Engine.Project.GenerateDemoJs | bin/index.js:369-384 | creates `./src/{name}Demo.tsx` unless something is there |
| Engine.Project.GenerateComponentFile | bin/index.js:386-406 | creates `./src/{name}.tsx` unless something is there |
| Engine.Project.SetupReact | bin/index.js:182-226 | the whole run ends in exactly the state and outcome of `Scaffold.Setup` |
| Engine.Project.PrepareProject | bin/index.js:183-215 | the directories, manifest fields and configurations end as `Scaffold.Prepare` says |
| Engine.Project.FixManifest | bin/index.js:185-196 | the eight `fixJSON` calls end as the fold of `fixJSON` over the manifest assignments |
| Engine.Project.FixManifestHead | bin/index.js:185-192 | the first four `fixJSON` calls either throw as the fold does, or leave the fold's last four assignments to do |
| Engine.Project.FixManifestTail | bin/index.js:193-196 | the last four `fixJSON` calls end as the fold over the last four assignments |
| Engine.Project.GenerateProjectFiles | bin/index.js:216-224 | the generators and the test generation end as `Scaffold.Generate` says |
| Filesystem.CreateFileNeverOverwrites | bin/index.js:472-477 | `createFile` on an existing path, file or directory, changes nothing whatever the content |
| Filesystem.CreateFileOnAbsentPath | bin/index.js:472-477 | `createFile` on an absent path stores exactly the content and changes nothing else, or throws for a missing directory and changes nothing |
| Filesystem.FirstCreateWins | bin/index.js:472-477 | after a successful `createFile(p, c1)`, `createFile(p, c2)` changes nothing and `p` holds `c1` |
| Filesystem.CreateFileKeeps | bin/index.js:472-484 | `createFile` and `createJSON` keep the tree valid, only add, and leave every existing file as it was |
| Filesystem.AddFilesKeeps | bin/index.js:472-477 | adding new files inside existing directories keeps the tree valid and every existing file as it was |
| Filesystem.FixJsonSetsKey | bin/index.js:486-496 | `fixJSON(f, k, v)` on a JSON file rewrites just `f`; `k` then reads exactly `v` (replaced, not merged) and every other key as before; on an unreadable file it throws and changes nothing |
| Filesystem.FixJsonLastWriterWins | bin/index.js:486-496 | `fixJSON(f, k, v1)` then `fixJSON(f, k, v2)` reads back `v2` and leaves the disk as `fixJSON(f, k, v2)` alone |
| Filesystem.FixJsonCurrentValue | bin/index.js:486-491 | `fixJSON(f, k, v)` when `k` already reads `v` leaves the disk as it was |
| Filesystem.FixJsonKeeps | bin/index.js:486-491 | `fixJSON` keeps the tree valid, adds no path, and changes no file but its own |
| Filesystem.CreateDirectoriesDone | bin/index.js:450-457 | no file changes; the new directories are exactly listed paths that did not exist; on completion every listed path exists and every listed path that was absent is now a directory |
| Filesystem.CreateDirectoriesIdempotent | bin/index.js:450-457 | when every listed path exists, `createDirectories` changes nothing |
| Filesystem.CreateTopLevelDirectories | bin/index.js:450-457 | paths at the top of the working directory can always be created |
| Filesystem.ReadDirNames | bin/index.js:443-448 | a name without '/' is listed exactly when an entry of that name exists in the directory |
| Filesystem.ReadDirEntry | bin/index.js:443-448 | every listed name is an entry that exists in the directory |
| Filesystem.ReadDirHasNoSlash | bin/index.js:443-448 | no listed name contains '/' |
| Scaffold.TestStemOfTestPath | bin/index.js:416-417 | the component can be read back from its test path, so no two components share a test file |
| Scaffold.TestPathInTestsDir | bin/index.js:417 | a component's test file lies directly in `./__tests__` |
| Scaffold.ComponentsMembers | bin/index.js:410-416 | a stem is a component of the listing exactly when some entry has that stem and it contains neither "index" nor "Demo" |
| Scaffold.TestFiles | bin/index.js:415-419 | the tests of a set of components are keyed by their test paths, one per component, each holding that component's test code |
| Scaffold.GenerateTestStep | bin/index.js:415-419 | one turn of the loop either adds the component's test (or finds it there) or is the first write into a missing `./__tests__`, which throws |
| Scaffold.GenerateTestsEnd | bin/index.js:408-420 | once the loop has visited every component, the disk holds exactly the missing tests |
| Scaffold.GenerateTestsAbort | bin/index.js:408-420 | a missing test with no `./__tests__` ends the generation with that error and the disk unchanged |
| Scaffold.NoSourceNoTests | bin/index.js:408-420 | without `./src` no test is written |
| Scaffold.GenerateComponentTestFilesKeeps | bin/index.js:408-420 | with `./src` and `./__tests__` present the generation completes, keeps the tree valid and changes no existing file |
| Scaffold.GenerateComponentTestFilesCreates | bin/index.js:408-420 | every listed entry whose stem passes the filter has its test afterwards, holding the test code when it was missing |
| Scaffold.GenerateComponentTestFilesOnlyTests | bin/index.js:408-420 | every new file is the test path of a component of the listing |
| Scaffold.GenerateComponentTestFilesIdempotent | bin/index.js:408-420 | a second generation changes nothing |
| Scaffold.GeneratedTestsOutsideSource | bin/index.js:408-420 | the generation does not change the `./src` listing |
| Scaffold.GeneratedTestsInPlace | bin/index.js:408-420 | after the generation no component of the listing lacks its test |
| Scaffold.MissingTestFilesAreNew | bin/index.js:415-419 | the tests the loop writes are at absent paths directly in `./__tests__` |
| Scaffold.ComponentsHaveNoSlash | bin/index.js:410-416 | a component found in `./src` has no '/' in its name |
| Scaffold.ManifestKeys | bin/index.js:185-196 | the eight keys `setupReact` assigns, one per `fixJSON` call, are pairwise distinct, so no call overrides another |
| Scaffold.FixJsonAllPatches | bin/index.js:185-196 | `fixJSON` key by key on a JSON file completes and leaves the object with every assignment applied, nothing else changed |
| Scaffold.CreateFilesDone | bin/index.js:216-223 | creating files in existing directories completes; every path exists, an absent path holds its first entry's content, old files are kept, new files come from the entries |
| Scaffold.CreateFilesAllExist | bin/index.js:216-223 | creating files that all exist changes nothing |
| Scaffold.GeneratedPathsDistinct | bin/index.js:228-406 | the eight generated paths differ for every component name |
| Scaffold.GeneratedPathsPlaced | bin/index.js:228-406 | every generated file lies in the working directory, `./src` or `./demo` |
| Scaffold.GeneratedSourcesPlaced | bin/index.js:346-406 | the component, its demo and the entry point are written to `./src` |
| Scaffold.GeneratedDemoPagePlaced | bin/index.js:353-367 | the demo page is written to `./demo` |
| Scaffold.GeneratedConfigPlaced | bin/index.js:228-344 | the README, `.npmignore` and both webpack configurations are written to the working directory |
| Scaffold.ProjectDirsAtTop | bin/index.js:9 | the four project directories lie in the working directory, so creating them never needs a missing parent |
| Scaffold.ManifestAtTop | bin/index.js:185 | `package.json` lies in the working directory |
| Scaffold.SetupDirectories | bin/index.js:183 | the first step makes the four project directories and touches no file |
| Scaffold.SetupManifestStep | bin/index.js:185-196 | the manifest steps leave the manifest object patched with the eight assignments and touch nothing else |
| Scaffold.SetupConfigStep | bin/index.js:197-215 | `.eslintrc` and `.babelrc` exist afterwards, hold the configurations when they were absent, and no file changes |
| Scaffold.SetupFilesStep | bin/index.js:216-223 | the generators create every generated path with its own content when absent, adding no directory and changing no file |
| Scaffold.PrepareSucceeds | bin/index.js:183-215 | with a JSON manifest and no file in the way, the first half completes with the directories, patched manifest and configurations in place |
| Scaffold.GenerateSucceeds | bin/index.js:216-224 | with the directories and a JSON manifest, the second half completes, creates every generated path and changes no existing file |
| Scaffold.SetupSucceeds | bin/index.js:182-226 | on a fresh project the whole setup completes: directories, patched manifest, configurations and every generated file exist, and no other file changes |
| Scaffold.ManifestPatchValues | bin/index.js:185-196 | the assignments leave version "0.0.1", license "MIT", main "./lib/index.js", and every other key as before |
| Scaffold.ManifestAssigns | bin/index.js:185-196 | each manifest key is assigned exactly once, by its own call |
| Scaffold.SetupManifest | bin/index.js:182-196 | after the setup the manifest reads version "0.0.1", license "MIT", main "./lib/index.js", and the package name and other keys as before |
| Scaffold.SetupTestFile | bin/index.js:182-226 | on a ready disk, a non-empty component name without '/' containing neither "index" nor "Demo" gets `./__tests__/{name}-test.js` in the same run |
| Scaffold.GenerateTestFile | bin/index.js:216-224 | the second half writes the test of the component it generates |
| Scaffold.ComponentFileListed | bin/index.js:386-416 | once `./src/{name}.tsx` exists, `./src` lists an entry whose stem is `name` |
| Scaffold.PrepareIdempotent | bin/index.js:183-215 | the first half changes nothing on a project it already prepared |
| Scaffold.GenerateIdempotent | bin/index.js:216-224 | the second half changes nothing when run again |
| Scaffold.GenerateOnComplete | bin/index.js:216-224 | with every generated file and test present, the second half does nothing |
| Scaffold.SetupIdempotent | bin/index.js:182-226 | running the setup a second time changes nothing |
| Scaffold.SetupWithoutManifest | bin/index.js:182-196 | when the disk `npm init` leaves holds no `package.json`, the setup makes the directories, then the first `fixJSON` throws for the missing file |
| Cli.Parse | bin/index.js:154-168 | length other than four is usage; four with "init" is setup of `argv[3]`; four with another command is nothing |
| Cli.Execute | bin/index.js:154-176 | with the npm commands taken to succeed: exit status -1 exactly for usage, 1 exactly when the setup throws, 0 otherwise; the disk changes only under "init" |
| Cli.InitSucceeds | bin/index.js:154-226 | with the npm commands taken to succeed, `init Name` for a non-empty name without '/' that contains neither "index" nor "Demo", on a fresh project, exits 0 with the directories, every generated file, the test and the manifest license in place |
| Cli.InitTwice | bin/index.js:154-226 | a second `init` with the same name exits 0 and changes nothing |
| Cli.InitWithoutManifest | bin/index.js:154-196 | when the disk `npm init` leaves holds no `package.json`, `init` exits 1 with only the directories made |
| Cli.Run | bin/index.js:154-168 | the method ends in exactly the state and exit status of `Execute` |
| Json.Set | bin/index.js:488 | `json[k] = v` keeps the key order, appending `k` when new, and leaves every member under another key in place |
| Json.GetDefinedIffKey | bin/index.js:493-496 | `json[k]` is defined exactly when `k` is a key |
| Json.GetSetSame | bin/index.js:488 | after `json[k] = v`, `json[k]` is `v` |
| Json.GetSetOther | bin/index.js:488 | after `json[k] = v`, every other key reads as before |
| Json.SetSetSameKey | bin/index.js:488 | two assignments to one key equal the second alone |
| Json.SetToCurrentValue | bin/index.js:488 | assigning a key its current value changes nothing |
| Json.SetKeepsKeysUnique | bin/index.js:488 | an assignment keeps the keys distinct |
| Json.DocumentsEqual | bin/index.js:486-491 | objects with distinct keys in the same order that agree on every key are equal |
| Json.LastAssignedAt | bin/index.js:185-196 | the last assignment of a key in a list is the one no later entry overrides |
| Json.NotAssigned | bin/index.js:185-196 | a key no assignment names is not assigned |
| Json.GetPatch | bin/index.js:185-196 | after a list of assignments a key reads as its last assignment, or as before when unassigned |
| Json.PatchKeepsKeysUnique | bin/index.js:185-196 | a list of assignments keeps the keys distinct |
| Json.PatchKeys | bin/index.js:185-196 | existing keys keep their order in front, assigned keys are present, and no key is added when all were there |
| Json.PatchIdempotent | bin/index.js:185-196 | applying the manifest assignments again changes nothing |
| PathNames.ChildPath | bin/index.js:417 | `dir + "/" + name` lies in `dir` with base name `name` when `name` has no '/' |
| PathNames.SplitPath | bin/index.js:443-448 | a path with '/' is its directory, '/', and its base name |
| PathNames.BareName | bin/index.js:472-484 | a path without '/' lies in the working directory |
| PathNames.BaseNameHasNoSlash | bin/index.js:443-448 | a base name has no '/' |
| PathNames.Stem | bin/index.js:412-416 | `path.parse(n).name` is a prefix of `n` |
| PathNames.StemOfNameWithExtension | bin/index.js:386-416 | the stem of `name + ".tsx"` is `name` |
| PathNames.StemHasNoSlash | bin/index.js:416-417 | the stem of a listed name has no '/' |
| Strings.LastIndexOf | bin/index.js:412-416 | the index is the last occurrence of the character, or -1 when there is none |
| Strings.ContainsIffOccurs | bin/index.js:412-413 | `includes` holds exactly when the substring occurs at some position |
| Strings.ContainsInfix | bin/index.js:412-413 | a string includes any piece it is built around |
| Strings.NatToDecimal | bin/index.js:229-233 | `String(n)` is decimal digits with no leading zero |
| Strings.DecimalRoundTrip | bin/index.js:229-233 | reading the decimal text of `n` back gives `n` |
| Templates.ComponentTestImports | bin/index.js:422-441 | a component's test code contains the line `import {name} from '../src/{name}'` |

## Left out

- The second run of `Scaffold.SetupIdempotent` and `Cli.InitTwice` starts from the disk the first run left. This assumes that `npm init -y` leaves an existing, already patched manifest as it is. It also assumes that the first run's `npm install` changed nothing the model sees: the dependencies in `package.json`, `package-lock.json` and `node_modules` are not modelled.
- `npm init -y` and `npmInstall` (`bin/index.js:184`, `bin/index.js:459-464`) run external programs and are not modelled. The run starts from the disk `npm init` leaves behind, so `package.json` must already be there. `npm init -y` creates a missing manifest, so a directory that had no manifest before the run is not the case of `Scaffold.SetupWithoutManifest` and `Cli.InitWithoutManifest`. Those lemmas describe a disk on which the manifest is still missing after `npm init`. That can only happen when `npm init` failed, and then the real run already stops at line 184 with status 1 and the same directories-only disk. Both commands are taken to succeed. In the program, `exec` is `execSync`, which throws when a command exits with a non-zero status. A failing `npm init` therefore ends the real run with status 1 after only the directories are made. A failing `npm install` ends it with status 1 after every file is written. `Cli.Execute` and `Cli.InitSucceeds` report status 0 for those runs.
- `puts`, `showComplete` and every `console.log`: output only.
- JSON text. A file written from an object holds that object, and `JSON.parse` gives it back. Byte formatting, numbers beyond integers, `__proto__` and the ordering of integer-like keys are not modelled. A file holding a JSON object (`JsonDoc`), the manifest `npm init` wrote among them, is read back as that object. A file holding text (`Text` or `Generated`) is read as a parse error. A file whose top-level JSON value is not an object is not modelled. In the program, `json[key] = value` at line 488 is lost on a string, number or boolean, and on an array under a key that is not an array index; the value is then written back unchanged. Under an index key, the assignment replaces that element of the array. On `null`, line 488 throws a TypeError and nothing is written.
- Json.GetDefinedIffKey: `json[k]` on an object from `JSON.parse` also yields the members it inherits from `Object.prototype` (`toString`, `constructor`, `hasOwnProperty`, `valueOf` and the rest), which are functions. `Get` gives `None` for those keys. The program itself reads only "name".
- Engine.Project.GetJsonValueByKey: for the same reason, `getJSONValueByKey(f, "toString")` returns a function in the program, while the model gives `undefined` (`None`).
- Strings.IntToDecimal: gives plain decimal digits for every integer. JavaScript numbers are doubles, and `String(n)` switches to exponent notation from 10^21 on, so beyond that magnitude the text differs.
- Path normalisation: paths are compared as written, so `./src/x` and `src/x` are different paths. The component name is pasted into paths verbatim (`bin/index.js:383`, `bin/index.js:405` and the other generators). A name containing `.` or `..` segments or `//`, such as `./Widget` or `../Widget`, gives paths such as `./src/./Widget.tsx`. The operating system resolves these, but the model compares them as written, finds their parent `./src/.` missing, and aborts where the program succeeds. The success lemmas require only that the name has no '/', so they do not cover such names.
- The order of `fs.readdirSync`. The listing is a set, and the loop of `generateComponentTestFiles` may visit it in any order. The outcome does not depend on the order: test content depends only on the stem, and either every write succeeds or the first one throws with the disk unchanged.
- Permission errors and other I/O failures. The only failures modelled are a missing directory, a missing file, a directory where a file is expected (and the reverse), and a file that is not JSON.
- `process.exit(-1)` is reported by the operating system as 255. The model returns the value the program passes.
- The text of each generated file stays behind `Render`. The only property proved about it is `Templates.ComponentTestImports`.
- `Engine.Project.SetupReact` is split into `PrepareProject`, `FixManifest` with its two halves, and `GenerateProjectFiles`. These are the consecutive calls of `setupReact` in source order, grouped so that each proof stays small.
- Filesystem.CreateDirectoriesDone: a listed path held by a file is skipped, as `fs.existsSync` is true for it. So "every listed path exists" is what holds, not "every listed path is a directory".

=== FILE: cli.dfy ===
/** The command line of `starter-react-component`.

    `process.argv` holds the path of `node` and of the script before the
    user's arguments, so `starter-react-component init Name` arrives as four
    strings. Four strings whose third is "init" set the project up; four
    strings with another command do nothing; any other count prints the usage
    and exits with -1. An error thrown while setting up is not caught, so
    Node.js ends the process with status 1. */
module Cli {
  import opened Wrappers
  import opened Json
  import opened Filesystem
  import opened Templates
  import opened Scaffold
  import Engine

  /** What `main` decides to do with its arguments. */
  datatype Command =
    | Init(name: string)
    | Ignored
    | Usage

  /** The `switch` of `main`: only an argument vector of length four is
      looked at, and only the command "init" does anything. */
  function Parse(argv: seq<string>): (c: Command)
    ensures c.Usage? <==> |argv| != 4
    ensures c.Init? <==> |argv| == 4 && argv[2] == "init"
    ensures c.Init? ==> c.name == argv[3]
  {
    if |argv| != 4 then Usage
    else if argv[2] == "init" then Init(argv[3])
    else Ignored
  }

  /** The exit status `showUsage` passes to `process.exit`. */
  const UsageStatus := -1

  /** The exit status of a process ended by an uncaught error. */
  const UncaughtStatus := 1

  /** Running the command: the disk afterwards and the exit status. The disk
      changes only under "init", and the status tells the three outcomes
      apart. */
  function Execute(d: Disk, argv: seq<string>): (r: (Disk, int))
    ensures r.1 == UsageStatus <==> |argv| != 4
    ensures r.1 == UncaughtStatus <==> Parse(argv).Init? && Setup(d, argv[3]).1.Aborted?
    ensures r.1 == 0 <==> |argv| == 4 && (argv[2] != "init" || Setup(d, argv[3]).1.Done?)
    ensures !Parse(argv).Init? ==> r.0 == d
    ensures Parse(argv).Init? ==> r.0 == Setup(d, argv[3]).0
  {
    match Parse(argv)
    case Usage => (d, UsageStatus)
    case Ignored => (d, 0)
    case Init(name) =>
      var (d1, o) := Setup(d, name);
      (d1, if o.Done? then 0 else UncaughtStatus)
  }

  /** `starter-react-component init Name` in a directory holding a fresh
      manifest and no files in the way succeeds: it exits with status 0,
      every project directory and every generated file exists, the
      component's test is there, and the manifest carries the license the
      scaffolder sets. */
  lemma InitSucceeds(d: Disk, name: string)
    requires Ready(d, name) && name != [] && IsComponent(name)
    ensures var (d1, status) := Execute(d, ["node", "starter-react-component", "init", name]);
            && status == 0
            && Valid(d1)
            && (forall p :: p in ProjectDirs ==> p in d1.dirs)
            && (forall i :: 0 <= i < |GeneratedPaths(name)| ==> Exists(d1, GeneratedPaths(name)[i]))
            && Exists(d1, TestPath(name))
            && GetJsonValueByKey(d1, Manifest, "license") == Ok(Some(Str("MIT")))
  {
    var argv := ["node", "starter-react-component", "init", name];
    assert Parse(argv) == Init(name);
    assert Execute(d, argv) == (Setup(d, name).0, 0) by {
      SetupSucceeds(d, name);
    }
    SetupSucceeds(d, name);
    SetupTestFile(d, name);
    SetupManifest(d, name);
  }

  /** Running "init" a second time with the same name is harmless: every
      file is left as the first run made it. */
  lemma InitTwice(d: Disk, name: string)
    requires Ready(d, name) && UniqueKeys(d.files[Manifest].doc)
    ensures var argv := ["node", "starter-react-component", "init", name];
            var (d1, status1) := Execute(d, argv);
            && status1 == 0
            && Execute(d1, argv) == (d1, 0)
  {
    SetupSucceeds(d, name);
    SetupIdempotent(d, name);
  }

  /** "init" where `npm init` left no manifest stops with status 1, having
      made only the project directories. */
  lemma InitWithoutManifest(d: Disk, name: string)
    requires Valid(d) && !Exists(d, Manifest)
    requires forall p :: p in ProjectDirs ==> p !in d.files
    ensures Execute(d, ["node", "starter-react-component", "init", name])
         == (CreateDirectories(d, ProjectDirs).0, UncaughtStatus)
  {
    SetupWithoutManifest(d, name);
  }

  /** `main()`: dispatch on the argument vector and run the command against
      the working directory, returning the exit status. */
  method Run(p: Engine.Project, argv: seq<string>) returns (status: int)
    modifies p
    ensures (p.State(), status) == Execute(old(p.State()), argv)
  {
    var command := Parse(argv);
    match command
    case Usage =>
      status := UsageStatus;
    case Ignored =>
      status := 0;
    case Init(name) =>
      var o := p.SetupReact(name);
      status := if o.Done? then 0 else UncaughtStatus;
  }
}

=== FILE: engine.dfy ===
/** The scaffolder as it runs: a working directory whose directories and files
    the helpers of `bin/index.js` change in place, one call at a time. Each
    method is proved to leave the state and return the outcome that the
    function of the same name in `Filesystem` or `Scaffold` describes, so
    every lemma about those functions holds of the methods. */
module Engine {
  import opened Wrappers
  import opened Json
  import opened PathNames
  import opened Templates
  import opened Filesystem
  import opened Scaffold

  class Project {
    /** The directories that exist. */
    var dirs: set<string>
    /** The files that exist, with their content. */
    var files: map<string, Content>

    /** The working directory as a value. */
    function State(): Disk
      reads this
    {
      Disk(dirs, files)
    }

    constructor (d: Disk)
      ensures State() == d
    {
      dirs := d.dirs;
      files := d.files;
    }

    // -------------------------------------------------------------------
    // The Node.js calls

    /** `fs.existsSync(p)`. */
    method ExistsSync(p: string) returns (b: bool)
      ensures b == Exists(State(), p)
    {
      b := p in dirs || p in files;
    }

    /** `fs.writeFileSync(p, c)`. */
    method WriteFileSync(p: string, c: Content) returns (o: Outcome)
      modifies this
      ensures (State(), o) == WriteFile(old(State()), p, c)
    {
      if p in dirs {
        return Aborted(IsADirectory(p));
      }
      if Parent(p) !in dirs {
        return Aborted(MissingDirectory(Parent(p)));
      }
      files := files[p := c];
      o := Done;
    }

    /** `fs.mkdirSync(p)`. */
    method MkdirSync(p: string) returns (o: Outcome)
      modifies this
      requires !Exists(State(), p)
      ensures (State(), o) == MakeDirectory(old(State()), p)
    {
      if Parent(p) !in dirs {
        return Aborted(MissingDirectory(Parent(p)));
      }
      dirs := dirs + {p};
      o := Done;
    }

    /** `JSON.parse(fs.readFileSync(p))`. */
    method ReadJsonFile(p: string) returns (r: Result<Document, Error>)
      ensures r == ReadJson(State(), p)
    {
      if p in files {
        match files[p]
        case JsonDoc(doc) => r := Ok(doc);
        case _ => r := Err(NotJson(p));
      } else if p in dirs {
        r := Err(IsADirectory(p));
      } else {
        r := Err(NoSuchFile(p));
      }
    }

    // -------------------------------------------------------------------
    // The helpers

    /** `createFile(file, content)`. */
    method CreateFile(file: string, content: Content) returns (o: Outcome)
      modifies this
      ensures (State(), o) == Filesystem.CreateFile(old(State()), file, content)
    {
      var present := ExistsSync(file);
      if !present {
        o := WriteFileSync(file, content);
      } else {
        o := Done;
      }
    }

    /** `createJSON(file, json)`. */
    method CreateJson(file: string, json: Document) returns (o: Outcome)
      modifies this
      ensures (State(), o) == Filesystem.CreateJson(old(State()), file, json)
    {
      var present := ExistsSync(file);
      if !present {
        o := WriteFileSync(file, JsonDoc(json));
      } else {
        o := Done;
      }
    }

    /** `fixJSON(file, key, value)`. */
    method FixJson(file: string, key: string, value: Value) returns (o: Outcome)
      modifies this
      ensures (State(), o) == Filesystem.FixJson(old(State()), file, key, value)
    {
      var read := ReadJsonFile(file);
      match read
      case Err(e) =>
        o := Aborted(e);
      case Ok(json) =>
        var fixed := Set(json, key, value);
        o := WriteFileSync(file, JsonDoc(fixed));
    }

    /** `getJSONValueByKey(file, key)`. */
    method GetJsonValueByKey(file: string, key: string) returns (r: Result<Option<Value>, Error>)
      ensures r == Filesystem.GetJsonValueByKey(State(), file, key)
      ensures r.Ok? <==> ReadJson(State(), file).Ok?
      ensures r.Ok? ==> (r.value.Some? <==> key in Keys(ReadJson(State(), file).value))
    {
      var read := ReadJsonFile(file);
      match read
      case Err(e) =>
        r := Err(e);
      case Ok(json) =>
        GetDefinedIffKey(json, key);
        r := Ok(Get(json, key));
    }

    /** `getFileNames(dir)`. */
    method GetFileNames(dir: string) returns (r: Result<set<string>, Error>)
      ensures r == Filesystem.GetFileNames(State(), dir)
      ensures !Exists(State(), dir) ==> r == Ok({})
      ensures r.Ok? ==> forall n :: n in r.value ==> '/' !in n
    {
      var present := ExistsSync(dir);
      if !present {
        return Ok({});
      }
      if dir in files {
        return Err(NotADirectory(dir));
      }
      r := Ok(set p | p in dirs + files.Keys && p != dir && Parent(p) == dir :: BaseName(p));
      forall n | n in r.value
        ensures '/' !in n
      {
        ReadDirHasNoSlash(State(), dir, n);
      }
    }

    /** `createDirectories(dirs)`: the listed directories in order, each made
        only when nothing exists at its path. */
    method CreateDirectories(ds: seq<string>) returns (o: Outcome)
      modifies this
      ensures (State(), o) == Filesystem.CreateDirectories(old(State()), ds)
    {
      var i := 0;
      while i < |ds|
        invariant 0 <= i <= |ds|
        invariant Filesystem.CreateDirectories(old(State()), ds) == Filesystem.CreateDirectories(State(), ds[i..])
      {
        assert ds[i..][0] == ds[i] && ds[i..][1..] == ds[i + 1..];
        var present := ExistsSync(ds[i]);
        if !present {
          o := MkdirSync(ds[i]);
          if o.Aborted? {
            return;
          }
        }
        i := i + 1;
      }
      o := Done;
    }

    // -------------------------------------------------------------------
    // The generators

    /** `generateComponentTestFiles()`: a test for each entry of `./src` whose
        stem passes the filter, in whatever order the listing comes. */
    method GenerateComponentTestFiles() returns (o: Outcome)
      modifies this
      ensures (State(), o) == Scaffold.GenerateComponentTestFiles(old(State()))
    {
      ghost var d0 := State();
      var listing := GetFileNames(SourceDir);
      if listing.Err? {
        return Aborted(listing.error);
      }
      var names := listing.value;
      var components := set n | n in names && IsComponent(Stem(n));
      var rest := components;
      ghost var done: set<string> := {};
      assert TestsWritten(d0, {}) == d0 by {
        assert d0.files + TestFiles({}) == d0.files;
      }
      assert components - rest == {};
      while rest != {}
        invariant rest <= components
        invariant done == Components(components - rest)
        invariant State() == TestsWritten(d0, done)
        invariant TestsDir !in d0.dirs ==> MissingTests(d0, done) == {}
        decreases rest
      {
        var n :| n in rest;
        var component := Stem(n);
        StemHasNoSlash(n);
        ComponentsAdd(components, rest, n);
        GenerateTestStep(d0, done, component);
        o := CreateFile(TestPath(component), Generated(ComponentTest(component)));
        if o.Aborted? {
          GenerateTestsAbort(d0, names, component);
          return;
        }
        rest := rest - {n};
        done := done + {component};
      }
      assert components - rest == components;
      ComponentsOfFiltered(names);
      GenerateTestsEnd(d0, names);
      o := Done;
    }

    /** `generateReadme(componentName)`: the README, naming the component
        and the package whose name it reads from the manifest. */
    method GenerateReadme(componentName: string) returns (o: Outcome)
      modifies this
      ensures var read := Filesystem.GetJsonValueByKey(old(State()), Manifest, "name");
              && (read.Err? ==> (State(), o) == (old(State()), Aborted(read.error)))
              && (read.Ok? ==> (State(), o) == Filesystem.CreateFile(old(State()), "README.md",
                                  Generated(Readme(componentName, DisplayOrUndefined(read.value)))))
    {
      var moduleName := GetJsonValueByKey(Manifest, "name");
      if moduleName.Err? {
        return Aborted(moduleName.error);
      }
      o := CreateFile("README.md", Generated(Readme(componentName, DisplayOrUndefined(moduleName.value))));
    }

    /** `generateNpmignore()`. */
    method GenerateNpmignore() returns (o: Outcome)
      modifies this
      ensures (State(), o) == Filesystem.CreateFile(old(State()), ".npmignore", Generated(Npmignore))
    {
      o := CreateFile(".npmignore", Generated(Npmignore));
    }

    /** `generateWebpackConfig(name)`. */
    method GenerateWebpackConfig(name: string) returns (o: Outcome)
      modifies this
      ensures (State(), o) == Filesystem.CreateFile(old(State()), "webpack.config.js", Generated(WebpackConfig(name)))
    {
      o := CreateFile("webpack.config.js", Generated(WebpackConfig(name)));
    }

    /** `generateWebpackDemoConfig(name)`. */
    method GenerateWebpackDemoConfig(name: string) returns (o: Outcome)
      modifies this
      ensures (State(), o) == Filesystem.CreateFile(old(State()), "webpack.demo.config.js", Generated(WebpackDemoConfig(name)))
    {
      o := CreateFile("webpack.demo.config.js", Generated(WebpackDemoConfig(name)));
    }

    /** `generateComponentFile(name)`. */
    method GenerateComponentFile(name: string) returns (o: Outcome)
      modifies this
      ensures (State(), o) == Filesystem.CreateFile(old(State()), "./src/" + name + ".tsx", Generated(ComponentTsx(name)))
    {
      o := CreateFile("./src/" + name + ".tsx", Generated(ComponentTsx(name)));
    }

    /** `generateIndexJS(name)`. */
    method GenerateIndexJs(name: string) returns (o: Outcome)
      modifies this
      ensures (State(), o) == Filesystem.CreateFile(old(State()), "./src/index.ts", Generated(IndexTs(name)))
    {
      o := CreateFile("./src/index.ts", Generated(IndexTs(name)));
    }

    /** `generateDemoHtml(name)`; the page does not depend on the name. */
    method GenerateDemoHtml(name: string) returns (o: Outcome)
      modifies this
      ensures (State(), o) == Filesystem.CreateFile(old(State()), DemoPage, Generated(DemoHtml))
    {
      o := CreateFile(DemoPage, Generated(DemoHtml));
    }

    /** `generateDemoJS(name)`. */
    method GenerateDemoJs(name: string) returns (o: Outcome)
      modifies this
      ensures (State(), o) == Filesystem.CreateFile(old(State()), "./src/" + name + "Demo.tsx", Generated(DemoTsx(name)))
    {
      o := CreateFile("./src/" + name + "Demo.tsx", Generated(DemoTsx(name)));
    }

    // -------------------------------------------------------------------
    // setupReact

    /** `setupReact(name)` without its npm commands. */
    method SetupReact(name: string) returns (o: Outcome)
      modifies this
      ensures (State(), o) == Setup(old(State()), name)
    {
      o := PrepareProject();
      if o.Aborted? {
        return;
      }
      o := GenerateProjectFiles(name);
    }

    /** The first half of `setupReact`: the directories, the eight
        `fixJSON` calls on the manifest, and the two configurations. */
    method PrepareProject() returns (o: Outcome)
      modifies this
      ensures (State(), o) == Prepare(old(State()))
    {
      o := CreateDirectories(ProjectDirs);
      if o.Aborted? {
        return;
      }
      o := FixManifest();
      if o.Aborted? {
        return;
      }
      o := CreateJson(".eslintrc", EslintConfig);
      if o.Aborted? {
        return;
      }
      o := CreateJson(".babelrc", BabelConfig);
    }

    /** The eight `fixJSON("package.json", key, value)` calls of
        `setupReact`, in two halves of four. */
    method FixManifest() returns (o: Outcome)
      modifies this
      ensures (State(), o) == FixJsonAll(old(State()), Manifest, ManifestPatches)
    {
      o := FixManifestHead();
      if o.Aborted? {
        return;
      }
      o := FixManifestTail();
    }

    /** The assignments of "version", "description", "repository" and
        "jest"; when none fails, what is left of the fold is its last four
        assignments. */
    method FixManifestHead() returns (o: Outcome)
      modifies this
      ensures o.Aborted? ==> (State(), o) == FixJsonAll(old(State()), Manifest, ManifestPatches)
      ensures o.Done? ==> FixJsonAll(old(State()), Manifest, ManifestPatches)
                          == FixJsonAll(State(), Manifest, ManifestPatches[4..])
    {
      ghost var patches := ManifestPatches;
      assert patches[0..] == patches;
      ghost var d := State();
      o := FixJson(Manifest, "version", Str("0.0.1"));
      FixJsonAllAt(d, Manifest, patches, 0, State(), o);
      if o.Aborted? {
        return;
      }
      d := State();
      o := FixJson(Manifest, "description", Str(Description));
      FixJsonAllAt(d, Manifest, patches, 1, State(), o);
      if o.Aborted? {
        return;
      }
      d := State();
      o := FixJson(Manifest, "repository", Repository);
      FixJsonAllAt(d, Manifest, patches, 2, State(), o);
      if o.Aborted? {
        return;
      }
      d := State();
      o := FixJson(Manifest, "jest", JestConfig);
      FixJsonAllAt(d, Manifest, patches, 3, State(), o);
    }

    /** The assignments of "scripts", "keywords", "license" and "main". */
    method FixManifestTail() returns (o: Outcome)
      modifies this
      ensures (State(), o) == FixJsonAll(old(State()), Manifest, ManifestPatches[4..])
    {
      ghost var patches := ManifestPatches;
      ghost var d := State();
      o := FixJson(Manifest, "scripts", Scripts);
      FixJsonAllAt(d, Manifest, patches, 4, State(), o);
      if o.Aborted? {
        return;
      }
      d := State();
      o := FixJson(Manifest, "keywords", Keywords);
      FixJsonAllAt(d, Manifest, patches, 5, State(), o);
      if o.Aborted? {
        return;
      }
      d := State();
      o := FixJson(Manifest, "license", Str("MIT"));
      FixJsonAllAt(d, Manifest, patches, 6, State(), o);
      if o.Aborted? {
        return;
      }
      d := State();
      o := FixJson(Manifest, "main", Str("./lib/index.js"));
      FixJsonAllAt(d, Manifest, patches, 7, State(), o);
      assert patches[8..] == [];
    }

    /** The second half of `setupReact`: the eight generators, then the
        component tests. */
    method GenerateProjectFiles(name: string) returns (o: Outcome)
      modifies this
      ensures (State(), o) == Generate(old(State()), name)
    {
      ghost var d0 := State();
      o := GenerateReadme(name);
      if o.Aborted? {
        return;
      }
      ghost var entries := GeneratedFiles(name, DisplayOrUndefined(Filesystem.GetJsonValueByKey(d0, Manifest, "name").value));
      assert CreateFiles(d0, entries) == CreateFiles(State(), entries[1..]);
      o := GenerateNpmignore();
      if o.Aborted? {
        return;
      }
      assert CreateFiles(d0, entries) == CreateFiles(State(), entries[2..]);
      o := GenerateWebpackConfig(name);
      if o.Aborted? {
        return;
      }
      assert CreateFiles(d0, entries) == CreateFiles(State(), entries[3..]);
      o := GenerateWebpackDemoConfig(name);
      if o.Aborted? {
        return;
      }
      assert CreateFiles(d0, entries) == CreateFiles(State(), entries[4..]);
      o := GenerateComponentFile(name);
      if o.Aborted? {
        return;
      }
      assert CreateFiles(d0, entries) == CreateFiles(State(), entries[5..]);
      o := GenerateIndexJs(name);
      if o.Aborted? {
        return;
      }
      assert CreateFiles(d0, entries) == CreateFiles(State(), entries[6..]);
      o := GenerateDemoHtml(name);
      if o.Aborted? {
        return;
      }
      assert CreateFiles(d0, entries) == CreateFiles(State(), entries[7..]);
      o := GenerateDemoJs(name);
      if o.Aborted? {
        return;
      }
      assert CreateFiles(d0, entries) == (State(), Done);
      o := GenerateComponentTestFiles();
    }
  }
}

=== FILE: filesystem.dfy ===
/** The working directory as the scaffolder sees it, and what each of its
    filesystem helpers does to it.

    A `Disk` is the set of directory paths and the map from file path to
    content. A file holds either text or, when it was written from a JSON
    object, that object (`JsonDoc`); JSON text is not modelled byte for byte.
    Every function below returns the new disk together with an `Outcome`:
    `Aborted` stands for the exception the Node.js call throws, which ends the
    whole run. */
module Filesystem {
  import opened Wrappers
  import opened Json
  import opened PathNames
  import opened Strings
  import opened Templates

  /** What a file holds: text the program did not write, a JSON object, or
      the text `Render(template)` of one of the generators. */
  datatype Content = Text(text: string) | JsonDoc(doc: Document) | Generated(template: Template)

  datatype Error =
    | MissingDirectory(dir: string)  // ENOENT or ENOTDIR: `dir` should hold the target but is not a directory
    | NoSuchFile(path: string)       // ENOENT on a read
    | IsADirectory(path: string)     // EISDIR
    | NotADirectory(path: string)    // ENOTDIR on a directory listing
    | NotJson(path: string)          // the SyntaxError of JSON.parse

  datatype Outcome = Done | Aborted(error: Error)

  datatype Disk = Disk(dirs: set<string>, files: map<string, Content>)

  /** A disk is a tree rooted at the working directory: a path is a file or a
      directory but not both, and whatever exists sits in a directory. */
  predicate Valid(d: Disk)
  {
    && CurrentDir in d.dirs
    && d.dirs !! d.files.Keys
    && (forall p :: p in d.dirs ==> Parent(p) in d.dirs)
    && (forall p :: p in d.files ==> Parent(p) in d.dirs)
  }

  /** `fs.existsSync(p)`: true for files and directories alike. */
  predicate Exists(d: Disk, p: string)
  {
    p in d.dirs || p in d.files
  }

  /** Nothing that exists on `d` is gone on `e`. */
  predicate Grows(d: Disk, e: Disk)
  {
    d.dirs <= e.dirs && d.files.Keys <= e.files.Keys
  }

  /** Every file of `d` other than `except` has the same content on `e`. */
  predicate KeepsFiles(d: Disk, e: Disk, except: set<string>)
  {
    forall p :: p in d.files && p !in except ==> p in e.files && e.files[p] == d.files[p]
  }

  /** `fs.writeFileSync(p, c)`. */
  function WriteFile(d: Disk, p: string, c: Content): (Disk, Outcome)
  {
    if p in d.dirs then (d, Aborted(IsADirectory(p)))
    else if Parent(p) in d.dirs then (Disk(d.dirs, d.files[p := c]), Done)
    else (d, Aborted(MissingDirectory(Parent(p))))
  }

  /** `createFile(file, content)`: write only when nothing exists at the path. */
  function CreateFile(d: Disk, p: string, c: Content): (Disk, Outcome)
  {
    if Exists(d, p) then (d, Done) else WriteFile(d, p, c)
  }

  /** `createJSON(file, json)`: `createFile` with the serialised object. */
  function CreateJson(d: Disk, p: string, doc: Document): (Disk, Outcome)
  {
    CreateFile(d, p, JsonDoc(doc))
  }

  /** `JSON.parse(fs.readFileSync(p))`, for a file whose top level is an object. */
  function ReadJson(d: Disk, p: string): Result<Document, Error>
  {
    if p in d.files then
      match d.files[p]
      case JsonDoc(doc) => Ok(doc)
      case _ => Err(NotJson(p))
    else if p in d.dirs then Err(IsADirectory(p))
    else Err(NoSuchFile(p))
  }

  /** `fixJSON(file, key, value)`: read the object, assign one key, write the
      whole object back. */
  function FixJson(d: Disk, p: string, k: string, v: Value): (Disk, Outcome)
  {
    match ReadJson(d, p)
    case Err(e) => (d, Aborted(e))
    case Ok(doc) => WriteFile(d, p, JsonDoc(Set(doc, k, v)))
  }

  /** `getJSONValueByKey(file, key)`; `None` is `undefined`. */
  function GetJsonValueByKey(d: Disk, p: string, k: string): Result<Option<Value>, Error>
  {
    match ReadJson(d, p)
    case Err(e) => Err(e)
    case Ok(doc) => Ok(Get(doc, k))
  }

  /** `fs.mkdirSync(p)`, which the program calls only where nothing exists
      yet. */
  function MakeDirectory(d: Disk, p: string): (Disk, Outcome)
    requires !Exists(d, p)
  {
    if Parent(p) in d.dirs then (Disk(d.dirs + {p}, d.files), Done)
    else (d, Aborted(MissingDirectory(Parent(p))))
  }

  /** `createDirectories(dirs)`: make each listed directory that does not exist,
      in order; the first `mkdirSync` that throws ends the run. */
  function CreateDirectories(d: Disk, ds: seq<string>): (Disk, Outcome)
    decreases |ds|
  {
    if ds == [] then (d, Done)
    else if Exists(d, ds[0]) then CreateDirectories(d, ds[1..])
    else
      var (d1, o) := MakeDirectory(d, ds[0]);
      if o.Aborted? then (d1, o) else CreateDirectories(d1, ds[1..])
  }

  /** `fs.readdirSync(dir)` for a directory: the names of its entries, files
      and directories alike, in no particular order. */
  function ReadDir(d: Disk, dir: string): set<string>
  {
    set p | p in d.dirs + d.files.Keys && p != dir && Parent(p) == dir :: BaseName(p)
  }

  /** `getFileNames(dir)`: the listing, or nothing when `dir` does not exist. */
  function GetFileNames(d: Disk, dir: string): Result<set<string>, Error>
  {
    if dir in d.files then Err(NotADirectory(dir))
    else if dir in d.dirs then Ok(ReadDir(d, dir))
    else Ok({})
  }

  // ---------------------------------------------------------------------
  // createFile and createJSON

  /** Adding new files inside existing directories keeps the disk a tree and
      every existing file as it was. */
  lemma AddFilesKeeps(d: Disk, m: map<string, Content>)
    requires Valid(d)
    requires forall p :: p in m ==> !Exists(d, p) && Parent(p) in d.dirs
    ensures var d1 := Disk(d.dirs, d.files + m);
            Valid(d1) && Grows(d, d1) && KeepsFiles(d, d1, {})
  {
  }

  /** A create on a path that exists leaves the disk as it is, whatever the
      new content: nothing is ever overwritten. */
  lemma CreateFileNeverOverwrites(d: Disk, p: string, c: Content)
    requires Exists(d, p)
    ensures CreateFile(d, p, c) == (d, Done)
  {
  }

  /** A create on an absent path in an existing directory leaves the path
      holding exactly the content and changes nothing else; without that
      directory it fails and changes nothing. */
  lemma CreateFileOnAbsentPath(d: Disk, p: string, c: Content)
    requires Valid(d) && !Exists(d, p)
    ensures Parent(p) in d.dirs ==> CreateFile(d, p, c) == (Disk(d.dirs, d.files[p := c]), Done)
    ensures Parent(p) !in d.dirs ==> CreateFile(d, p, c) == (d, Aborted(MissingDirectory(Parent(p))))
  {
  }

  /** Of two creates on one path, the first that succeeds wins. */
  lemma FirstCreateWins(d: Disk, p: string, c1: Content, c2: Content)
    requires Valid(d)
    ensures var (d1, o1) := CreateFile(d, p, c1);
            o1.Done? ==> CreateFile(d1, p, c2) == (d1, Done) && Exists(d1, p)
    ensures var (d1, o1) := CreateFile(d, p, c1);
            o1.Done? && !Exists(d, p) ==> d1.files[p] == c1
  {
  }

  /** A create keeps the disk a tree, only adds, and leaves every existing
      file as it was, whether it succeeds or not. */
  lemma CreateFileKeeps(d: Disk, p: string, c: Content)
    requires Valid(d)
    ensures var (d1, _) := CreateFile(d, p, c);
            Valid(d1) && Grows(d, d1) && d1.dirs == d.dirs && KeepsFiles(d, d1, {})
  {
  }

  // ---------------------------------------------------------------------
  // fixJSON and getJSONValueByKey

  /** `fixJSON` on a readable JSON file assigns exactly that key: the key then
      reads as the new value and every other key as before. On an unreadable
      file it fails and changes nothing. */
  lemma FixJsonSetsKey(d: Disk, p: string, k: string, v: Value)
    requires Valid(d)
    ensures ReadJson(d, p).Ok? ==>
              var doc := ReadJson(d, p).value;
              var (d1, o) := FixJson(d, p, k, v);
              && o == Done
              && d1 == Disk(d.dirs, d.files[p := JsonDoc(Set(doc, k, v))])
              && GetJsonValueByKey(d1, p, k) == Ok(Some(v))
              && (forall other :: other != k ==> GetJsonValueByKey(d1, p, other) == Ok(Get(doc, other)))
    ensures ReadJson(d, p).Err? ==> FixJson(d, p, k, v) == (d, Aborted(ReadJson(d, p).error))
  {
    if ReadJson(d, p).Ok? {
      var doc := ReadJson(d, p).value;
      GetSetSame(doc, k, v);
      forall other | other != k
        ensures GetJsonValueByKey(FixJson(d, p, k, v).0, p, other) == Ok(Get(doc, other))
      {
        GetSetOther(doc, k, v, other);
      }
    }
  }

  /** Two `fixJSON` calls on one key: the second value is what is read back,
      and the file is as if only the second call had been made. */
  lemma FixJsonLastWriterWins(d: Disk, p: string, k: string, v1: Value, v2: Value)
    requires Valid(d) && ReadJson(d, p).Ok?
    ensures var (d1, _) := FixJson(d, p, k, v1);
            var (d2, o2) := FixJson(d1, p, k, v2);
            && o2 == Done
            && GetJsonValueByKey(d2, p, k) == Ok(Some(v2))
            && d2 == FixJson(d, p, k, v2).0
  {
    var doc := ReadJson(d, p).value;
    var d1 := FixJson(d, p, k, v1).0;
    assert d1 == Disk(d.dirs, d.files[p := JsonDoc(Set(doc, k, v1))]);
    assert ReadJson(d1, p) == Ok(Set(doc, k, v1));
    SetSetSameKey(doc, k, v1, v2);
    GetSetSame(Set(doc, k, v1), k, v2);
    assert d1.files[p := JsonDoc(Set(Set(doc, k, v1), k, v2))] == d.files[p := JsonDoc(Set(doc, k, v2))];
  }

  /** `fixJSON` with the value a key already holds leaves the disk as it
      was, so running the manifest fixes over a fixed manifest is harmless. */
  lemma FixJsonCurrentValue(d: Disk, p: string, k: string, v: Value)
    requires Valid(d) && GetJsonValueByKey(d, p, k) == Ok(Some(v))
    ensures FixJson(d, p, k, v) == (d, Done)
  {
    var doc := ReadJson(d, p).value;
    SetToCurrentValue(doc, k, v);
    assert d.files[p := JsonDoc(doc)] == d.files;
  }

  /** `fixJSON` keeps the disk a tree and leaves every other file as it was. */
  lemma FixJsonKeeps(d: Disk, p: string, k: string, v: Value)
    requires Valid(d)
    ensures var (d1, _) := FixJson(d, p, k, v);
            Valid(d1) && d1.dirs == d.dirs && d1.files.Keys == d.files.Keys && KeepsFiles(d, d1, {p})
  {
  }

  // ---------------------------------------------------------------------
  // createDirectories

  /** A `createDirectories` that completes leaves every listed path existing;
      the new directories are exactly the listed paths that did not exist,
      and no file changes. */
  lemma {:induction false} CreateDirectoriesDone(d: Disk, ds: seq<string>)
    requires Valid(d)
    ensures var (d1, o) := CreateDirectories(d, ds);
            && Valid(d1)
            && d1.files == d.files
            && d.dirs <= d1.dirs
            && (forall p :: p in d1.dirs - d.dirs ==> p in ds && !Exists(d, p))
            && (o.Done? ==> forall p :: p in ds ==> Exists(d1, p))
            && (o.Done? ==> forall p :: p in ds && !Exists(d, p) ==> p in d1.dirs)
    decreases |ds|
  {
    if ds != [] {
      var d1 := if Exists(d, ds[0]) then d else MakeDirectory(d, ds[0]).0;
      CreateDirectoriesDone(d1, ds[1..]);
      assert forall p :: p in ds[1..] ==> p in ds;
    }
  }

  /** Running `createDirectories` again after it completed creates nothing. */
  lemma {:induction false} CreateDirectoriesIdempotent(d: Disk, ds: seq<string>)
    requires forall p :: p in ds ==> Exists(d, p)
    ensures CreateDirectories(d, ds) == (d, Done)
    decreases |ds|
  {
    if ds != [] {
      CreateDirectoriesIdempotent(d, ds[1..]);
    }
  }

  /** Paths at the top of the working directory can always be created. */
  lemma {:induction false} CreateTopLevelDirectories(d: Disk, ds: seq<string>)
    requires Valid(d)
    requires forall p :: p in ds ==> Parent(p) == CurrentDir
    ensures CreateDirectories(d, ds).1 == Done
    decreases |ds|
  {
    if ds != [] {
      var d1 := if Exists(d, ds[0]) then d else MakeDirectory(d, ds[0]).0;
      assert Valid(d1);
      CreateTopLevelDirectories(d1, ds[1..]);
    }
  }

  // ---------------------------------------------------------------------
  // getFileNames

  /** The listing of a directory names exactly its entries (for the working
      directory these are also spelled without "./"). */
  lemma ReadDirNames(d: Disk, dir: string, name: string)
    requires '/' !in name
    ensures name in ReadDir(d, dir)
        <==> Exists(d, dir + "/" + name) || (dir == CurrentDir && name != dir && Exists(d, name))
  {
    if name in ReadDir(d, dir) {
      ReadDirEntry(d, dir, name);
    }
    var child := dir + "/" + name;
    if Exists(d, child) {
      ChildPath(dir, name);
      assert |child| > |dir|;
      assert BaseName(child) in ReadDir(d, dir);
    }
    if dir == CurrentDir && name != dir && Exists(d, name) {
      BareName(name);
      assert BaseName(name) in ReadDir(d, dir);
    }
  }

  /** Where a listed name comes from. */
  lemma ReadDirEntry(d: Disk, dir: string, name: string)
    requires '/' !in name
    requires name in ReadDir(d, dir)
    ensures Exists(d, dir + "/" + name) || (dir == CurrentDir && name != dir && Exists(d, name))
  {
    var p :| p in d.dirs + d.files.Keys && p != dir && Parent(p) == dir && BaseName(p) == name;
    if '/' in p {
      SplitPath(p);
      assert p == dir + "/" + name;
    } else {
      BareName(p);
    }
  }

  /** Listed names never hold a '/'. */
  lemma ReadDirHasNoSlash(d: Disk, dir: string, name: string)
    requires name in ReadDir(d, dir)
    ensures '/' !in name
  {
    var p :| p in d.dirs + d.files.Keys && p != dir && Parent(p) == dir && BaseName(p) == name;
    BaseNameHasNoSlash(p);
  }
}

=== FILE: json.dfy ===
/** JSON values and documents as the scaffolder reads and writes them.

    A document is the top-level object of a JSON file: its members in
    insertion order, which is the order `JSON.stringify` writes them back in.
    `Set` is the assignment `json[key] = value`: an existing member is
    replaced where it stands, a new one is appended. The lemmas below are the
    properties the read-modify-write of the manifest relies on. */
module Json {
  import opened Wrappers
  import opened Strings

  datatype Value =
    | Null
    | Bool(b: bool)
    | Num(n: int)
    | Str(s: string)
    | Arr(items: seq<Value>)
    | Obj(members: seq<(string, Value)>)

  /** The members of a top-level JSON object, in insertion order. */
  type Document = seq<(string, Value)>

  /** The keys of `d`, in order. */
  function Keys(d: Document): seq<string>
  {
    seq(|d|, i requires 0 <= i < |d| => d[i].0)
  }

  /** A JavaScript object never holds the same key twice. */
  predicate UniqueKeys(d: Document)
  {
    forall i, j :: 0 <= i < j < |d| ==> d[i].0 != d[j].0
  }

  /** `json[key]`: the value stored under `k`, or `None` for `undefined`. */
  function Get(d: Document, k: string): Option<Value>
  {
    if d == [] then None
    else if d[0].0 == k then Some(d[0].1)
    else Get(d[1..], k)
  }

  /** `json[key] = value`: the key order is kept when `k` is present and `k`
      is appended when it is not, and every member under another key stays
      where it was. */
  function Set(d: Document, k: string, v: Value): (r: Document)
    ensures Keys(r) == if k in Keys(d) then Keys(d) else Keys(d) + [k]
    ensures forall i :: 0 <= i < |d| && d[i].0 != k ==> r[i] == d[i]
  {
    if d == [] then [(k, v)]
    else
      KeysCons(d[0], d[1..]);
      assert d == [d[0]] + d[1..];
      if d[0].0 == k then
        KeysCons((k, v), d[1..]);
        [(k, v)] + d[1..]
      else
        var rest := Set(d[1..], k, v);
        KeysCons(d[0], rest);
        [d[0]] + rest
  }

  /** The keys of a document with one more member in front. */
  lemma KeysCons(m: (string, Value), d: Document)
    ensures Keys([m] + d) == [m.0] + Keys(d)
  {
  }

  /** A key can be read back exactly when it is one of the document's keys. */
  lemma {:induction false} GetDefinedIffKey(d: Document, k: string)
    ensures Get(d, k).Some? <==> k in Keys(d)
  {
    if d != [] {
      assert Keys(d) == [d[0].0] + Keys(d[1..]);
      if d[0].0 != k {
        GetDefinedIffKey(d[1..], k);
      }
    }
  }

  /** After `json[k] = v`, reading `k` gives `v`: the old value is replaced
      whole, never merged. */
  lemma {:induction false} GetSetSame(d: Document, k: string, v: Value)
    ensures Get(Set(d, k, v), k) == Some(v)
  {
    if d != [] && d[0].0 != k {
      GetSetSame(d[1..], k, v);
    }
  }

  /** After `json[k] = v`, every other key reads as before. */
  lemma {:induction false} GetSetOther(d: Document, k: string, v: Value, other: string)
    requires other != k
    ensures Get(Set(d, k, v), other) == Get(d, other)
  {
    if d != [] && d[0].0 != k {
      GetSetOther(d[1..], k, v, other);
    }
  }

  /** Two assignments to the same key leave the document as the second one
      alone would: the last writer wins. */
  lemma {:induction false} SetSetSameKey(d: Document, k: string, v1: Value, v2: Value)
    ensures Set(Set(d, k, v1), k, v2) == Set(d, k, v2)
  {
    if d != [] && d[0].0 != k {
      SetSetSameKey(d[1..], k, v1, v2);
    }
  }

  /** Assigning a key the value it already holds changes nothing. */
  lemma {:induction false} SetToCurrentValue(d: Document, k: string, v: Value)
    requires Get(d, k) == Some(v)
    ensures Set(d, k, v) == d
  {
    if d[0].0 != k {
      SetToCurrentValue(d[1..], k, v);
    }
  }

  /** An assignment keeps the keys of a document distinct. */
  lemma SetKeepsKeysUnique(d: Document, k: string, v: Value)
    requires UniqueKeys(d)
    ensures UniqueKeys(Set(d, k, v))
  {
    var r := Set(d, k, v);
    forall i, j | 0 <= i < j < |r|
      ensures r[i].0 != r[j].0
    {
      assert Keys(r)[i] == r[i].0 && Keys(r)[j] == r[j].0;
      if j == |d| {
        assert Keys(d)[i] == d[i].0;
      }
    }
  }

  /** Documents with distinct keys are equal when they have the same keys in
      the same order and agree on every key. */
  lemma {:induction false} DocumentsEqual(a: Document, b: Document)
    requires UniqueKeys(a) && UniqueKeys(b)
    requires Keys(a) == Keys(b)
    requires forall k :: Get(a, k) == Get(b, k)
    ensures a == b
  {
    if a != [] {
      assert |b| == |Keys(b)| == |a|;
      var k0 := a[0].0;
      assert Keys(b)[0] == b[0].0 == k0;
      assert Get(a, k0) == Some(a[0].1) && Get(b, k0) == Some(b[0].1);
      assert Keys(a[1..]) == Keys(a)[1..] == Keys(b)[1..] == Keys(b[1..]);
      forall k
        ensures Get(a[1..], k) == Get(b[1..], k)
      {
        if k == k0 {
          GetDefinedIffKey(a[1..], k);
          GetDefinedIffKey(b[1..], k);
          assert k !in Keys(a[1..]);
        } else {
          assert Get(a, k) == Get(a[1..], k) && Get(b, k) == Get(b[1..], k);
        }
      }
      DocumentsEqual(a[1..], b[1..]);
      assert a == [a[0]] + a[1..] && b == [b[0]] + b[1..];
    }
  }

  /** Applying a list of assignments `json[k] = v` in order. */
  function Patch(d: Document, patches: seq<(string, Value)>): Document
    decreases |patches|
  {
    if patches == [] then d
    else Patch(Set(d, patches[0].0, patches[0].1), patches[1..])
  }

  /** The value the last assignment to `k` in `patches` stores, if any. */
  function LastAssigned(patches: seq<(string, Value)>, k: string): Option<Value>
    decreases |patches|
  {
    if patches == [] then None
    else match LastAssigned(patches[1..], k)
      case Some(v) => Some(v)
      case None => if patches[0].0 == k then Some(patches[0].1) else None
  }

  /** The assignment at `i` is the last one to `k` when no later one names
      `k`. */
  lemma {:induction false} LastAssignedAt(patches: seq<(string, Value)>, k: string, i: int)
    requires 0 <= i < |patches| && patches[i].0 == k
    requires forall j :: i < j < |patches| ==> patches[j].0 != k
    ensures LastAssigned(patches, k) == Some(patches[i].1)
    decreases |patches|
  {
    var rest := patches[1..];
    if i == 0 {
      forall j | 0 <= j < |rest|
        ensures rest[j].0 != k
      {
        assert rest[j] == patches[j + 1];
      }
      NotAssigned(rest, k);
    } else {
      assert rest[i - 1] == patches[i];
      forall j | i - 1 < j < |rest|
        ensures rest[j].0 != k
      {
        assert rest[j] == patches[j + 1];
      }
      LastAssignedAt(rest, k, i - 1);
    }
  }

  /** A key no assignment of the list names is not assigned by it. */
  lemma {:induction false} NotAssigned(patches: seq<(string, Value)>, k: string)
    requires forall i :: 0 <= i < |patches| ==> patches[i].0 != k
    ensures LastAssigned(patches, k) == None
    decreases |patches|
  {
    if patches != [] {
      assert forall i :: 0 <= i < |patches| - 1 ==> patches[1..][i] == patches[i + 1];
      NotAssigned(patches[1..], k);
    }
  }

  /** After a patch list, a key reads as its last assignment, and a key the
      list does not assign reads as before. */
  lemma {:induction false} GetPatch(d: Document, patches: seq<(string, Value)>, k: string)
    ensures Get(Patch(d, patches), k)
         == if LastAssigned(patches, k).Some? then LastAssigned(patches, k) else Get(d, k)
    decreases |patches|
  {
    if patches != [] {
      var (k0, v0) := patches[0];
      GetPatch(Set(d, k0, v0), patches[1..], k);
      if k == k0 {
        GetSetSame(d, k0, v0);
      } else {
        GetSetOther(d, k0, v0, k);
      }
    }
  }

  /** A patch list keeps the keys of a document distinct. */
  lemma {:induction false} PatchKeepsKeysUnique(d: Document, patches: seq<(string, Value)>)
    requires UniqueKeys(d)
    ensures UniqueKeys(Patch(d, patches))
    decreases |patches|
  {
    if patches != [] {
      SetKeepsKeysUnique(d, patches[0].0, patches[0].1);
      PatchKeepsKeysUnique(Set(d, patches[0].0, patches[0].1), patches[1..]);
    }
  }

  /** A patch list keeps the existing keys in their order and in front: new
      keys are only ever appended, and every key it assigns is present
      afterwards. */
  lemma {:induction false} PatchKeys(d: Document, patches: seq<(string, Value)>)
    ensures Keys(d) <= Keys(Patch(d, patches))
    ensures forall i :: 0 <= i < |patches| ==> patches[i].0 in Keys(Patch(d, patches))
    ensures (forall i :: 0 <= i < |patches| ==> patches[i].0 in Keys(d)) ==> Keys(Patch(d, patches)) == Keys(d)
    decreases |patches|
  {
    if patches != [] {
      var d1 := Set(d, patches[0].0, patches[0].1);
      PatchKeys(d1, patches[1..]);
      assert patches[0].0 in Keys(d1);
      forall i | 0 <= i < |patches|
        ensures patches[i].0 in Keys(Patch(d, patches))
      {
        if i > 0 {
          assert patches[i] == patches[1..][i - 1];
        } else {
          assert Keys(d1) <= Keys(Patch(d1, patches[1..]));
        }
      }
      if forall i :: 0 <= i < |patches| ==> patches[i].0 in Keys(d) {
        assert Keys(d1) == Keys(d);
        assert forall i :: 0 <= i < |patches| - 1 ==> patches[1..][i] == patches[i + 1];
      }
    }
  }

  /** Applying the same patch list a second time changes nothing. */
  lemma PatchIdempotent(d: Document, patches: seq<(string, Value)>)
    requires UniqueKeys(d)
    ensures Patch(Patch(d, patches), patches) == Patch(d, patches)
  {
    var once := Patch(d, patches);
    var twice := Patch(once, patches);
    PatchKeepsKeysUnique(d, patches);
    PatchKeepsKeysUnique(once, patches);
    PatchKeys(d, patches);
    PatchKeys(once, patches);
    forall k
      ensures Get(twice, k) == Get(once, k)
    {
      GetPatch(once, patches, k);
      GetPatch(d, patches, k);
    }
    DocumentsEqual(twice, once);
  }

  /** `String(v)`, the text a template literal interpolates for `v`. */
  function Display(v: Value): string
    decreases v, 1, 0
  {
    match v
    case Null => "null"
    case Bool(b) => if b then "true" else "false"
    case Num(n) => IntToDecimal(n)
    case Str(s) => s
    case Arr(items) => JoinItems(v, 0)
    case Obj(_) => "[object Object]"
  }

  /** `Array.prototype.join(",")` from index `i` on: `null` items print as
      the empty string. */
  function JoinItems(a: Value, i: nat): string
    requires a.Arr? && i <= |a.items|
    decreases a, 0, |a.items| - i
  {
    if i == |a.items| then ""
    else
      var item := if a.items[i].Null? then "" else Display(a.items[i]);
      if i + 1 == |a.items| then item else item + "," + JoinItems(a, i + 1)
  }

  /** `String(x)` for a value read from a document, `undefined` included. */
  function DisplayOrUndefined(v: Option<Value>): string
  {
    match v
    case None => "undefined"
    case Some(x) => Display(x)
  }
}

=== FILE: pathnames.dfy ===
/** Path names as the scaffolder writes them. A path is kept exactly as the
    program spells it ("./src", "package.json", "./src/index.ts"); the
    directory holding a path is the text before its last '/', and a bare name
    lives in the working directory ".". */
module PathNames {
  import opened Strings

  /** The working directory the scaffolder runs in. */
  const CurrentDir: string := "."

  /** The directory that holds `p`: the text before the last '/', or the
      working directory when `p` has no '/'. */
  function Parent(p: string): string
  {
    var i := LastIndexOf(p, '/');
    if i < 0 then CurrentDir else p[..i]
  }

  /** The last component of `p`: what a directory listing of `Parent(p)`
      reports for it. */
  function BaseName(p: string): string
  {
    p[LastIndexOf(p, '/') + 1..]
  }

  /** A character absent from every position from `start` on is absent
      from the suffix there. */
  lemma NoneAfter(s: string, c: char, start: nat)
    requires start <= |s|
    requires forall j :: start <= j < |s| ==> s[j] != c
    ensures c !in s[start..]
  {
    var t := s[start..];
    forall k | 0 <= k < |t|
      ensures t[k] != c
    {
      assert t[k] == s[start + k];
    }
  }

  /** A base name never holds a '/'. */
  lemma BaseNameHasNoSlash(p: string)
    ensures '/' !in BaseName(p)
  {
    var i := LastIndexOf(p, '/');
    NoneAfter(p, '/', i + 1);
  }

  /** Joining a directory and a name with '/' gives a path whose parent is the
      directory and whose base name is the name, when the name holds no '/'. */
  lemma ChildPath(dir: string, name: string)
    requires '/' !in name
    ensures Parent(dir + "/" + name) == dir
    ensures BaseName(dir + "/" + name) == name
  {
    var p := dir + "/" + name;
    assert p[|dir|] == '/';
    forall j | |dir| < j < |p|
      ensures p[j] != '/'
    {
      assert p[j] == name[j - |dir| - 1];
    }
    var i := LastIndexOf(p, '/');
    assert i == |dir|;
    assert p[..i] == dir;
    assert p[i + 1..] == name;
  }

  /** A path is the child `BaseName(p)` of its parent, when it has a '/'. */
  lemma SplitPath(p: string)
    requires '/' in p
    ensures p == Parent(p) + "/" + BaseName(p)
  {
    var i := LastIndexOf(p, '/');
    assert p == p[..i] + "/" + p[i + 1..];
  }

  /** A path without '/' is a bare name in the working directory. */
  lemma BareName(p: string)
    requires '/' !in p
    ensures Parent(p) == CurrentDir && BaseName(p) == p
  {
    assert LastIndexOf(p, '/') == -1;
  }

  /** `path.parse(n).name` for a directory entry `n` (which holds no '/'):
      `n` without its extension. The extension starts at the last '.',
      unless that dot is the first character (".eslintrc" keeps its name) or
      `n` is "..". */
  function Stem(n: string): (r: string)
    ensures r <= n
  {
    var i := LastIndexOf(n, '.');
    if i <= 0 || n == ".." then n else n[..i]
  }

  /** Stripping an extension that starts with its only dot gives back a
      non-empty name (`Stem("Widget.tsx") == "Widget"`, also for
      "my.widget.tsx"). */
  lemma StemOfNameWithExtension(name: string, ext: string)
    requires name != [] && ext != [] && ext[0] == '.' && '.' !in ext[1..]
    requires name + ext != ".."
    ensures Stem(name + ext) == name
  {
    var n := name + ext;
    assert n[|name|] == '.';
    forall j | |name| < j < |n|
      ensures n[j] != '.'
    {
      assert n[j] == ext[1..][j - |name| - 1];
    }
    assert LastIndexOf(n, '.') == |name|;
    assert n[..|name|] == name;
  }

  /** A stem of a name without '/' has no '/' either. */
  lemma StemHasNoSlash(n: string)
    requires '/' !in n
    ensures '/' !in Stem(n)
  {
    var r := Stem(n);
    forall k | 0 <= k < |r|
      ensures r[k] != '/'
    {
      assert r[k] == n[k];
    }
  }
}

=== FILE: scaffold.dfy ===
/** What `setupReact` and `generateComponentTestFiles` do to the working
    directory, as functions of the disk they start from.

    `Setup` runs the steps of `setupReact` in the order the program issues
    them; the first step that throws ends the run with the disk as that step
    left it. The `npm init` and `npm install` commands are not part of this
    model: the run starts from the disk `npm init` leaves behind. */
module Scaffold {
  import opened Wrappers
  import opened Strings
  import opened PathNames
  import opened Json
  import opened Templates
  import opened Filesystem

  /** The manifest every step of the setup reads or fixes. */
  const Manifest: string := "package.json"

  /** The directory whose listing names the components. */
  const SourceDir: string := "./src"

  /** The directory the generated tests go to. */
  const TestsDir: string := "./__tests__"

  /** The page `generateDemoHtml` writes into `./demo`. */
  const DemoPage: string := "./demo" + "/" + "index.html"

  const TestSuffix: string := "-test.js"

  // ---------------------------------------------------------------------
  // Test file names

  /** `"./__tests__/" + component + "-test.js"`. */
  function TestPath(stem: string): string
  {
    TestsDir + "/" + stem + TestSuffix
  }

  /** The component a test path was made for. */
  function TestStem(p: string): string
  {
    if |p| < |TestsDir| + 1 + |TestSuffix| then p
    else p[|TestsDir| + 1..|p| - |TestSuffix|]
  }

  /** `TestStem` gives back the component a test path was made from, so no
      two components share a test file. */
  lemma TestStemOfTestPath(stem: string)
    ensures TestStem(TestPath(stem)) == stem
  {
    var p := TestPath(stem);
    assert p[|TestsDir| + 1..|p| - |TestSuffix|] == stem;
  }

  /** The test file of a component without '/' lies directly in the tests
      directory. */
  lemma TestPathInTestsDir(stem: string)
    requires '/' !in stem
    ensures Parent(TestPath(stem)) == TestsDir
    ensures TestPath(stem) != TestsDir
  {
    var name := stem + TestSuffix;
    assert '/' !in name by {
      forall k | 0 <= k < |name|
        ensures name[k] != '/'
      {
        if k < |stem| {
          assert name[k] == stem[k];
        } else {
          assert name[k] == TestSuffix[k - |stem|];
        }
      }
    }
    ChildPath(TestsDir, name);
    assert TestPath(stem) == TestsDir + "/" + name;
  }

  /** The filter of `generateComponentTestFiles`: a stem naming neither an
      index module nor a demo. */
  predicate IsComponent(stem: string)
  {
    !Contains(stem, "index") && !Contains(stem, "Demo")
  }

  /** The components among the entries of a listing: the stems that pass the
      filter. */
  function Components(names: set<string>): set<string>
  {
    set n | n in names && IsComponent(Stem(n)) :: Stem(n)
  }

  /** A stem is a component of a listing exactly when some entry has that stem
      and the stem passes the filter. */
  lemma ComponentsMembers(names: set<string>, stem: string)
    ensures stem in Components(names) <==> IsComponent(stem) && exists n :: n in names && Stem(n) == stem
  {
    if IsComponent(stem) && exists n :: n in names && Stem(n) == stem {
      var n :| n in names && Stem(n) == stem;
      assert Stem(n) in Components(names);
    }
  }

  /** The components whose test file does not exist yet. */
  function MissingTests(d: Disk, stems: set<string>): set<string>
  {
    set s | s in stems && !Exists(d, TestPath(s))
  }

  /** The test files for the components `stems`, by path. */
  function TestFiles(stems: set<string>): (m: map<string, Content>)
    ensures forall s :: s in stems ==> TestPath(s) in m && m[TestPath(s)] == Generated(ComponentTest(s))
    ensures forall p :: p in m ==> TestStem(p) in stems && p == TestPath(TestStem(p))
  {
    var m := map p | p in (set s | s in stems :: TestPath(s)) :: Generated(ComponentTest(TestStem(p)));
    assert forall s :: s in stems ==> TestPath(s) in m && TestStem(TestPath(s)) == s by {
      forall s | s in stems
        ensures TestPath(s) in m && TestStem(TestPath(s)) == s
      {
        TestStemOfTestPath(s);
      }
    }
    assert forall p :: p in m ==> TestStem(p) in stems && p == TestPath(TestStem(p)) by {
      forall p | p in m
        ensures TestStem(p) in stems && p == TestPath(TestStem(p))
      {
        var s :| s in stems && p == TestPath(s);
        TestStemOfTestPath(s);
      }
    }
    m
  }

  /** `generateComponentTestFiles()`: a test file for every component of the
      `./src` listing whose test file does not exist yet. The writes all go to
      `./__tests__`, so they either all succeed or the first one throws. */
  function GenerateComponentTestFiles(d: Disk): (Disk, Outcome)
  {
    match GetFileNames(d, SourceDir)
    case Err(e) => (d, Aborted(e))
    case Ok(names) =>
      var missing := MissingTests(d, Components(names));
      if missing == {} then (d, Done)
      else if TestsDir in d.dirs then (Disk(d.dirs, d.files + TestFiles(missing)), Done)
      else (d, Aborted(MissingDirectory(TestsDir)))
  }

  /** Taking one more entry that passes the filter out of the entries still
      to visit adds its stem to the components visited. */
  lemma ComponentsAdd(entries: set<string>, rest: set<string>, n: string)
    requires n in rest && IsComponent(Stem(n))
    ensures Components(entries - (rest - {n})) == Components(entries - rest) + if n in entries then {Stem(n)} else {}
  {
    if n in entries {
      assert entries - (rest - {n}) == (entries - rest) + {n};
      assert Stem(n) in Components(entries - (rest - {n}));
    } else {
      assert entries - (rest - {n}) == entries - rest;
    }
  }

  /** Filtering the entries first does not change the components. */
  lemma ComponentsOfFiltered(names: set<string>)
    ensures Components(set n | n in names && IsComponent(Stem(n))) == Components(names)
  {
  }

  /** The disk once the tests of the components `done` are written where
      they were missing. */
  function TestsWritten(d: Disk, done: set<string>): Disk
  {
    Disk(d.dirs, d.files + TestFiles(MissingTests(d, done)))
  }

  /** The test files of one more component are the old ones plus its own. */
  lemma TestFilesAdd(stems: set<string>, stem: string)
    ensures TestFiles(stems + {stem}) == TestFiles(stems)[TestPath(stem) := Generated(ComponentTest(stem))]
  {
    var before := TestFiles(stems);
    var after := TestFiles(stems + {stem});
    var expected := before[TestPath(stem) := Generated(ComponentTest(stem))];
    forall p | p in after
      ensures p in expected && after[p] == expected[p]
    {
      var s := TestStem(p);
      if s != stem {
        assert p in before;
      }
    }
    forall p | p in expected
      ensures p in after
    {
      if p != TestPath(stem) {
        assert TestStem(p) in stems;
      }
    }
  }

  /** Writing the test of one more component whose test file is missing adds
      that component to the generated test files. */
  lemma AddTestFile(d: Disk, done: set<string>, stem: string)
    requires !Exists(d, TestPath(stem))
    ensures (d.files + TestFiles(MissingTests(d, done)))[TestPath(stem) := Generated(ComponentTest(stem))]
         == d.files + TestFiles(MissingTests(d, done + {stem}))
  {
    var missing := MissingTests(d, done);
    assert MissingTests(d, done + {stem}) == missing + {stem} by {
      assert stem in MissingTests(d, done + {stem});
    }
    TestFilesAdd(missing, stem);
    UpdateMerged(d.files, TestFiles(missing), TestPath(stem), Generated(ComponentTest(stem)));
  }

  /** Updating a merged map is updating its right-hand side. */
  lemma UpdateMerged(a: map<string, Content>, b: map<string, Content>, k: string, v: Content)
    ensures (a + b)[k := v] == a + b[k := v]
  {
  }

  /** One turn of the loop of `generateComponentTestFiles`: the
      `createFile` of one more component's test either extends the written
      tests, or, as the first write into a missing tests directory, fails
      with the disk untouched. */
  lemma GenerateTestStep(d: Disk, done: set<string>, stem: string)
    requires TestsDir !in d.dirs ==> MissingTests(d, done) == {}
    requires '/' !in stem
    ensures var (after, o) := CreateFile(TestsWritten(d, done), TestPath(stem), Generated(ComponentTest(stem)));
            if o.Done? then
              && after == TestsWritten(d, done + {stem})
              && (TestsDir !in d.dirs ==> MissingTests(d, done + {stem}) == {})
            else
              && TestsDir !in d.dirs
              && !Exists(d, TestPath(stem))
              && (after, o) == (d, Aborted(MissingDirectory(TestsDir)))
  {
    if Exists(TestsWritten(d, done), TestPath(stem)) {
      TestAlreadyThere(d, done, stem);
    } else {
      TestWritten(d, done, stem);
    }
  }

  /** A test path that exists once the tests of `done` are written is either
      a file the user had or one of those tests: `stem` adds nothing to what
      is missing. */
  lemma TestAlreadyThere(d: Disk, done: set<string>, stem: string)
    requires Exists(TestsWritten(d, done), TestPath(stem))
    ensures MissingTests(d, done + {stem}) == MissingTests(d, done)
  {
    var p := TestPath(stem);
    if !Exists(d, p) {
      TestStemOfTestPath(stem);
      assert p in TestFiles(MissingTests(d, done));
      assert stem in MissingTests(d, done);
    }
  }

  /** A test path that does not exist yet is written into the tests
      directory, or, without that directory, nothing is written. */
  lemma TestWritten(d: Disk, done: set<string>, stem: string)
    requires TestsDir !in d.dirs ==> MissingTests(d, done) == {}
    requires '/' !in stem
    requires !Exists(TestsWritten(d, done), TestPath(stem))
    ensures var (after, o) := WriteFile(TestsWritten(d, done), TestPath(stem), Generated(ComponentTest(stem)));
            if o.Done? then
              after == TestsWritten(d, done + {stem}) && TestsDir in d.dirs
            else
              && TestsDir !in d.dirs
              && !Exists(d, TestPath(stem))
              && (after, o) == (d, Aborted(MissingDirectory(TestsDir)))
  {
    TestPathInTestsDir(stem);
    AddTestFile(d, done, stem);
    if TestsDir !in d.dirs {
      assert d.files + TestFiles({}) == d.files;
    }
  }

  /** Once the loop has written the tests of every component, the disk is the
      one the generation describes. */
  lemma GenerateTestsEnd(d: Disk, names: set<string>)
    requires GetFileNames(d, SourceDir) == Ok(names)
    requires TestsDir !in d.dirs ==> MissingTests(d, Components(names)) == {}
    ensures GenerateComponentTestFiles(d) == (TestsWritten(d, Components(names)), Done)
  {
    if MissingTests(d, Components(names)) == {} {
      assert d.files + TestFiles({}) == d.files;
    }
  }

  /** A test the loop cannot write ends the generation as described. */
  lemma GenerateTestsAbort(d: Disk, names: set<string>, stem: string)
    requires GetFileNames(d, SourceDir) == Ok(names)
    requires stem in Components(names) && !Exists(d, TestPath(stem)) && TestsDir !in d.dirs
    ensures GenerateComponentTestFiles(d) == (d, Aborted(MissingDirectory(TestsDir)))
  {
    assert stem in MissingTests(d, Components(names));
  }

  /** Without a `./src` directory nothing is generated. */
  lemma NoSourceNoTests(d: Disk)
    requires !Exists(d, SourceDir)
    ensures GenerateComponentTestFiles(d) == (d, Done)
  {
    assert MissingTests(d, Components({})) == {};
  }

  /** With `./src` and `./__tests__` in place the generation completes,
      keeps the disk a tree, and leaves every file that existed as it was. */
  lemma GenerateComponentTestFilesKeeps(d: Disk)
    requires Valid(d) && SourceDir in d.dirs && TestsDir in d.dirs
    ensures var (d1, o) := GenerateComponentTestFiles(d);
            o == Done && Valid(d1) && d1.dirs == d.dirs && KeepsFiles(d, d1, {})
  {
    var names := ReadDir(d, SourceDir);
    var missing := MissingTests(d, Components(names));
    assert GetFileNames(d, SourceDir) == Ok(names);
    if missing != {} {
      forall s | s in Components(names)
        ensures '/' !in s
      {
        ComponentsHaveNoSlash(d, s);
      }
      MissingTestFilesAreNew(d, Components(names));
      AddFilesKeeps(d, TestFiles(missing));
    }
  }

  /** With `./src` and `./__tests__` in place, every entry of `./src` whose
      stem passes the filter has its test file afterwards, and a test file
      that did not exist holds the generated test for that stem. */
  lemma GenerateComponentTestFilesCreates(d: Disk, n: string)
    requires Valid(d) && SourceDir in d.dirs && TestsDir in d.dirs
    requires n in ReadDir(d, SourceDir) && IsComponent(Stem(n))
    ensures var d1 := GenerateComponentTestFiles(d).0;
            && Exists(d1, TestPath(Stem(n)))
            && (!Exists(d, TestPath(Stem(n))) ==> d1.files[TestPath(Stem(n))] == Generated(ComponentTest(Stem(n))))
  {
    var names := ReadDir(d, SourceDir);
    var missing := MissingTests(d, Components(names));
    assert GetFileNames(d, SourceDir) == Ok(names);
    var s := Stem(n);
    assert s in Components(names);
    if !Exists(d, TestPath(s)) {
      assert s in missing;
    }
  }

  /** Every file the generation adds is the test file of a component of the
      `./src` listing. */
  lemma GenerateComponentTestFilesOnlyTests(d: Disk, p: string)
    requires Valid(d)
    requires var d1 := GenerateComponentTestFiles(d).0; p in d1.files && p !in d.files
    ensures TestStem(p) in Components(ReadDir(d, SourceDir)) && p == TestPath(TestStem(p))
  {
    if SourceDir in d.dirs {
      assert GetFileNames(d, SourceDir) == Ok(ReadDir(d, SourceDir));
    }
  }

  /** The test files of components without '/' whose test file is missing
      are new files of the tests directory. */
  lemma MissingTestFilesAreNew(d: Disk, stems: set<string>)
    requires forall s :: s in stems ==> '/' !in s
    ensures forall p :: p in TestFiles(MissingTests(d, stems)) ==> !Exists(d, p) && Parent(p) == TestsDir
  {
    forall p | p in TestFiles(MissingTests(d, stems))
      ensures !Exists(d, p) && Parent(p) == TestsDir
    {
      TestPathInTestsDir(TestStem(p));
    }
  }

  /** The components of the `./src` listing hold no '/'. */
  lemma ComponentsHaveNoSlash(d: Disk, stem: string)
    requires stem in Components(ReadDir(d, SourceDir))
    ensures '/' !in stem
  {
    var n :| n in ReadDir(d, SourceDir) && Stem(n) == stem;
    ReadDirHasNoSlash(d, SourceDir, n);
    StemHasNoSlash(n);
  }

  /** The generation adds nothing to `./src`: the listing is the same
      afterwards. */
  lemma GeneratedTestsOutsideSource(d: Disk)
    requires Valid(d) && SourceDir in d.dirs && TestsDir in d.dirs
    ensures ReadDir(GenerateComponentTestFiles(d).0, SourceDir) == ReadDir(d, SourceDir)
  {
    var names := ReadDir(d, SourceDir);
    assert GetFileNames(d, SourceDir) == Ok(names);
    GenerateComponentTestFilesKeeps(d);
    var d1 := GenerateComponentTestFiles(d).0;
    forall s | s in Components(names)
      ensures '/' !in s
    {
      ComponentsHaveNoSlash(d, s);
    }
    MissingTestFilesAreNew(d, Components(names));
    forall n | n in ReadDir(d1, SourceDir)
      ensures n in names
    {
      var p :| p in d1.dirs + d1.files.Keys && p != SourceDir && Parent(p) == SourceDir && BaseName(p) == n;
      assert p in d.dirs + d.files.Keys;
    }
  }

  /** After the generation every component of the listing has its test. */
  lemma GeneratedTestsInPlace(d: Disk)
    requires Valid(d) && SourceDir in d.dirs && TestsDir in d.dirs
    ensures MissingTests(GenerateComponentTestFiles(d).0, Components(ReadDir(d, SourceDir))) == {}
  {
    var names := ReadDir(d, SourceDir);
    var missing := MissingTests(d, Components(names));
    assert GetFileNames(d, SourceDir) == Ok(names);
    GenerateComponentTestFilesKeeps(d);
    var d1 := GenerateComponentTestFiles(d).0;
    forall s | s in Components(names)
      ensures Exists(d1, TestPath(s))
    {
      if !Exists(d, TestPath(s)) {
        assert s in missing;
      }
    }
  }

  /** The generation adds nothing to `./src`, so a second run lists the same
      components, finds every test file in place, and changes nothing. */
  lemma GenerateComponentTestFilesIdempotent(d: Disk)
    requires Valid(d) && SourceDir in d.dirs && TestsDir in d.dirs
    ensures var d1 := GenerateComponentTestFiles(d).0;
            GenerateComponentTestFiles(d1) == (d1, Done)
  {
    GenerateComponentTestFilesKeeps(d);
    GeneratedTestsOutsideSource(d);
    GeneratedTestsInPlace(d);
    var d1 := GenerateComponentTestFiles(d).0;
    assert GetFileNames(d1, SourceDir) == Ok(ReadDir(d, SourceDir));
  }

  // ---------------------------------------------------------------------
  // Folds of the helpers

  /** `fixJSON(p, k, v)` for each assignment in order. */
  function FixJsonAll(d: Disk, p: string, patches: seq<(string, Value)>): (Disk, Outcome)
    decreases |patches|
  {
    if patches == [] then (d, Done)
    else
      var (d1, o) := FixJson(d, p, patches[0].0, patches[0].1);
      if o.Aborted? then (d1, o) else FixJsonAll(d1, p, patches[1..])
  }

  /** `createFile(path, content)` for each entry in order. */
  function CreateFiles(d: Disk, entries: seq<(string, Content)>): (Disk, Outcome)
    decreases |entries|
  {
    if entries == [] then (d, Done)
    else
      var (d1, o) := CreateFile(d, entries[0].0, entries[0].1);
      if o.Aborted? then (d1, o) else CreateFiles(d1, entries[1..])
  }

  /** The fold over the assignments from `k` on starts with assignment `k`. */
  lemma FixJsonAllAt(d: Disk, p: string, patches: seq<(string, Value)>, k: int, d1: Disk, o: Outcome)
    requires 0 <= k < |patches|
    requires FixJson(d, p, patches[k].0, patches[k].1) == (d1, o)
    ensures FixJsonAll(d, p, patches[k..])
         == if o.Aborted? then (d1, o) else FixJsonAll(d1, p, patches[k + 1..])
  {
    assert patches[k..][1..] == patches[k + 1..];
  }

  /** Fixing a readable JSON file key by key patches its object: the file ends
      up holding the object with every assignment applied, and nothing else
      changes. */
  lemma {:induction false} FixJsonAllPatches(d: Disk, p: string, patches: seq<(string, Value)>)
    requires p in d.files && d.files[p].JsonDoc? && p !in d.dirs && Parent(p) in d.dirs
    ensures FixJsonAll(d, p, patches)
         == (Disk(d.dirs, d.files[p := JsonDoc(Patch(d.files[p].doc, patches))]), Done)
    decreases |patches|
  {
    if patches != [] {
      var doc := d.files[p].doc;
      var doc1 := Set(doc, patches[0].0, patches[0].1);
      var d1 := Disk(d.dirs, d.files[p := JsonDoc(doc1)]);
      assert ReadJson(d, p) == Ok(doc);
      assert FixJson(d, p, patches[0].0, patches[0].1) == (d1, Done);
      assert d1.files[p].doc == doc1;
      assert FixJsonAll(d, p, patches) == FixJsonAll(d1, p, patches[1..]);
      FixJsonAllPatches(d1, p, patches[1..]);
      assert Patch(doc, patches) == Patch(doc1, patches[1..]);
      var final := JsonDoc(Patch(doc, patches));
      assert d1.files[p := final] == d.files[p := final];
      assert d1.files[p := JsonDoc(Patch(d1.files[p].doc, patches[1..]))]
          == d.files[p := JsonDoc(Patch(doc, patches))];
    } else {
      assert d.files[p := JsonDoc(d.files[p].doc)] == d.files;
    }
  }

  /** No entry before the `i`-th has its path. */
  predicate FirstEntry(entries: seq<(string, Content)>, i: int)
    requires 0 <= i < |entries|
  {
    forall j :: 0 <= j < i ==> entries[j].0 != entries[i].0
  }

  /** Creating files in directories that exist completes. Every listed path
      exists afterwards, a path that was absent holds the content of its first
      entry, and no file that existed changes. */
  lemma {:induction false} CreateFilesDone(d: Disk, entries: seq<(string, Content)>)
    requires Valid(d)
    requires forall i :: 0 <= i < |entries| ==> Parent(entries[i].0) in d.dirs
    ensures var (d1, o) := CreateFiles(d, entries);
            && o == Done
            && Valid(d1) && d1.dirs == d.dirs && KeepsFiles(d, d1, {})
            && (forall i :: 0 <= i < |entries| ==> Exists(d1, entries[i].0))
            && (forall i :: 0 <= i < |entries| && !Exists(d, entries[i].0) && FirstEntry(entries, i) ==>
                  d1.files[entries[i].0] == entries[i].1)
            && (forall q :: q in d1.files && q !in d.files ==> exists i :: 0 <= i < |entries| && entries[i].0 == q)
    decreases |entries|
  {
    if entries != [] {
      var (p, c) := entries[0];
      var d1 := CreateFile(d, p, c).0;
      CreateFileKeeps(d, p, c);
      CreateFilesDone(d1, entries[1..]);
      var d2 := CreateFiles(d, entries).0;
      assert d2 == CreateFiles(d1, entries[1..]).0;
      forall i | 0 <= i < |entries|
        ensures Exists(d2, entries[i].0)
      {
        if i > 0 {
          assert entries[i] == entries[1..][i - 1];
        }
      }
      forall i | 0 <= i < |entries| && !Exists(d, entries[i].0) && FirstEntry(entries, i)
        ensures d2.files[entries[i].0] == entries[i].1
      {
        if i > 0 {
          assert entries[i] == entries[1..][i - 1];
          assert entries[0].0 != entries[i].0;
          forall j | 0 <= j < i - 1
            ensures entries[1..][j].0 != entries[i].0
          {
            assert entries[1..][j] == entries[j + 1];
          }
          assert FirstEntry(entries[1..], i - 1);
        }
      }
      forall q | q in d2.files && q !in d.files
        ensures exists i :: 0 <= i < |entries| && entries[i].0 == q
      {
        if q != p {
          var i :| 0 <= i < |entries[1..]| && entries[1..][i].0 == q;
          assert entries[i + 1].0 == q;
        } else {
          assert entries[0].0 == q;
        }
      }
    }
  }

  /** Creating files that all exist already changes nothing. */
  lemma {:induction false} CreateFilesAllExist(d: Disk, entries: seq<(string, Content)>)
    requires forall i :: 0 <= i < |entries| ==> Exists(d, entries[i].0)
    ensures CreateFiles(d, entries) == (d, Done)
    decreases |entries|
  {
    if entries != [] {
      assert forall i :: 0 <= i < |entries| - 1 ==> entries[1..][i] == entries[i + 1];
      CreateFilesAllExist(d, entries[1..]);
    }
  }

  // ---------------------------------------------------------------------
  // setupReact

  /** The files the generators of `setupReact` create, in the order they are
      created, for component `name` and package name `moduleName`. */
  function GeneratedFiles(name: string, moduleName: string): seq<(string, Content)>
  {
    [ ("README.md", Generated(Readme(name, moduleName))),
      (".npmignore", Generated(Npmignore)),
      ("webpack.config.js", Generated(WebpackConfig(name))),
      ("webpack.demo.config.js", Generated(WebpackDemoConfig(name))),
      ("./src/" + name + ".tsx", Generated(ComponentTsx(name))),
      ("./src/index.ts", Generated(IndexTs(name))),
      (DemoPage, Generated(DemoHtml)),
      ("./src/" + name + "Demo.tsx", Generated(DemoTsx(name))) ]
  }

  /** `setupReact(name)` without its npm commands: the project skeleton,
      then the generated files. */
  function Setup(d: Disk, name: string): (Disk, Outcome)
  {
    var (d1, o1) := Prepare(d);
    if o1.Aborted? then (d1, o1) else Generate(d1, name)
  }

  /** The first half of `setupReact`: the project directories, the manifest
      fields, then the lint and Babel configurations. */
  function Prepare(d: Disk): (Disk, Outcome)
  {
    var (d1, o1) := CreateDirectories(d, ProjectDirs);
    if o1.Aborted? then (d1, o1) else
    var (d2, o2) := FixJsonAll(d1, Manifest, ManifestPatches);
    if o2.Aborted? then (d2, o2) else
    var (d3, o3) := CreateJson(d2, ".eslintrc", EslintConfig);
    if o3.Aborted? then (d3, o3) else
    CreateJson(d3, ".babelrc", BabelConfig)
  }

  /** The second half of `setupReact`: the generators, the first of which
      reads the package name from the manifest, then the component tests. */
  function Generate(d: Disk, name: string): (Disk, Outcome)
  {
    match GetJsonValueByKey(d, Manifest, "name")
    case Err(e) => (d, Aborted(e))
    case Ok(moduleName) =>
      var (d1, o1) := CreateFiles(d, GeneratedFiles(name, DisplayOrUndefined(moduleName)));
      if o1.Aborted? then (d1, o1) else GenerateComponentTestFiles(d1)
  }

  /** The paths `setupReact` generates for component `name`. */
  function GeneratedPaths(name: string): seq<string>
  {
    ["README.md", ".npmignore", "webpack.config.js", "webpack.demo.config.js",
     "./src/" + name + ".tsx", "./src/index.ts", DemoPage, "./src/" + name + "Demo.tsx"]
  }

  /** What a successful setup needs: a tree holding a JSON manifest, no file
      in the way of a project directory, and a component name that stays in
      `./src`. */
  predicate Ready(d: Disk, name: string)
  {
    && Valid(d)
    && Manifest in d.files && d.files[Manifest].JsonDoc?
    && (forall p :: p in ProjectDirs ==> p !in d.files)
    && '/' !in name
  }

  /** The generated files are written to the generated paths, in order. */
  lemma GeneratedFilesPaths(name: string, moduleName: string)
    ensures |GeneratedFiles(name, moduleName)| == |GeneratedPaths(name)|
    ensures forall i :: 0 <= i < |GeneratedPaths(name)| ==> GeneratedFiles(name, moduleName)[i].0 == GeneratedPaths(name)[i]
  {
  }

  /** No generated path is entered twice, so each one holds the content of
      its own entry. */
  lemma GeneratedEntriesFirst(name: string, moduleName: string, i: int)
    requires 0 <= i < |GeneratedFiles(name, moduleName)|
    ensures FirstEntry(GeneratedFiles(name, moduleName), i)
  {
    GeneratedFilesPaths(name, moduleName);
    GeneratedPathsDistinct(name);
  }

  /** Every generated file sits in the working directory, `./src` or
      `./demo`. */
  lemma GeneratedPathsPlaced(name: string)
    requires '/' !in name
    ensures forall i :: 0 <= i < |GeneratedPaths(name)| ==> Parent(GeneratedPaths(name)[i]) in {CurrentDir, SourceDir, "./demo"}
  {
    GeneratedConfigPlaced(name);
    GeneratedSourcesPlaced(name);
    GeneratedDemoPagePlaced(name);
  }

  /** The component, its demo and the entry point are written to `./src`. */
  lemma GeneratedSourcesPlaced(name: string)
    requires '/' !in name
    ensures Parent(GeneratedPaths(name)[4]) == SourceDir
    ensures Parent(GeneratedPaths(name)[5]) == SourceDir
    ensures Parent(GeneratedPaths(name)[7]) == SourceDir
  {
    var ps := GeneratedPaths(name);
    assert Parent(ps[4]) == SourceDir by {
      InSource(name + ".tsx");
      assert ps[4] == "./src/" + (name + ".tsx");
    }
    assert Parent(ps[5]) == SourceDir by {
      InSource("index.ts");
      assert ps[5] == "./src/" + "index.ts";
    }
    InSource(name + "Demo.tsx");
    assert ps[7] == "./src/" + (name + "Demo.tsx");
  }

  /** The demo page is written to `./demo`. */
  lemma GeneratedDemoPagePlaced(name: string)
    ensures Parent(GeneratedPaths(name)[6]) == "./demo"
  {
    ChildPath("./demo", "index.html");
  }

  /** The README, `.npmignore` and the webpack configurations are written to
      the working directory. */
  lemma GeneratedConfigPlaced(name: string)
    ensures forall i :: 0 <= i < 4 ==> Parent(GeneratedPaths(name)[i]) == CurrentDir
  {
    forall i | 0 <= i < 4
      ensures Parent(GeneratedPaths(name)[i]) == CurrentDir
    {
      var p := GeneratedPaths(name)[i];
      assert '/' !in p;
      BareName(p);
    }
  }

  /** `"./src/" + file` lies in `./src`. */
  lemma InSource(file: string)
    requires '/' !in file
    ensures Parent("./src/" + file) == SourceDir
  {
    ChildPath(SourceDir, file);
    assert "./src/" + file == SourceDir + "/" + file;
  }

  /** The project directories are created in the working directory. */
  lemma ProjectDirsAtTop()
    ensures forall p :: p in ProjectDirs ==> Parent(p) == CurrentDir
  {
    assert Parent("./src") == CurrentDir by { TopLevel("src"); }
    assert Parent("./lib") == CurrentDir by { TopLevel("lib"); }
    assert Parent("./demo") == CurrentDir by { TopLevel("demo"); }
    assert Parent("./__tests__") == CurrentDir by { TopLevel("__tests__"); }
  }

  /** `"./" + name` lies in the working directory. */
  lemma TopLevel(name: string)
    requires '/' !in name
    ensures Parent("./" + name) == CurrentDir
  {
    ChildPath(CurrentDir, name);
    assert "./" + name == CurrentDir + "/" + name;
  }

  /** The first step creates the four project directories and touches no
      file. */
  lemma SetupDirectories(d: Disk)
    requires Valid(d) && forall p :: p in ProjectDirs ==> p !in d.files
    ensures var (d1, o) := CreateDirectories(d, ProjectDirs);
            && o == Done && Valid(d1) && d1.files == d.files
            && (forall p :: p in ProjectDirs ==> p in d1.dirs)
  {
    ProjectDirsAtTop();
    CreateTopLevelDirectories(d, ProjectDirs);
    CreateDirectoriesDone(d, ProjectDirs);
  }

  /** The manifest lies in the working directory. */
  lemma ManifestAtTop()
    ensures Parent(Manifest) == CurrentDir
  {
    BareName(Manifest);
  }

  /** The manifest steps patch the manifest object and touch nothing else. */
  lemma SetupManifestStep(d: Disk)
    requires Valid(d) && Manifest in d.files && d.files[Manifest].JsonDoc?
    ensures var (d1, o) := FixJsonAll(d, Manifest, ManifestPatches);
            && o == Done && Valid(d1) && d1.dirs == d.dirs
            && d1 == Disk(d.dirs, d.files[Manifest := JsonDoc(Patch(d.files[Manifest].doc, ManifestPatches))])
  {
    ManifestAtTop();
    FixJsonAllPatches(d, Manifest, ManifestPatches);
  }

  /** The configuration steps create `.eslintrc` and `.babelrc` unless they
      exist, and change no existing file. */
  lemma SetupConfigStep(d: Disk)
    requires Valid(d)
    ensures var (d1, o1) := CreateJson(d, ".eslintrc", EslintConfig);
            var (d2, o2) := CreateJson(d1, ".babelrc", BabelConfig);
            && o1 == Done && o2 == Done && Valid(d2) && d2.dirs == d.dirs && KeepsFiles(d, d2, {})
            && Exists(d2, ".eslintrc") && Exists(d2, ".babelrc")
            && (!Exists(d, ".eslintrc") ==> d2.files[".eslintrc"] == JsonDoc(EslintConfig))
            && (!Exists(d, ".babelrc") ==> d2.files[".babelrc"] == JsonDoc(BabelConfig))
  {
    var p1 := ".eslintrc";
    var p2 := ".babelrc";
    assert Parent(p1) == CurrentDir by { BareName(p1); }
    assert Parent(p2) == CurrentDir by { BareName(p2); }
    CreateFileKeeps(d, p1, JsonDoc(EslintConfig));
    var d1 := CreateJson(d, p1, EslintConfig).0;
    CreateFileKeeps(d1, p2, JsonDoc(BabelConfig));
  }

  /** The file generators create every generated path in directories the
      first step made, and change no existing file. */
  lemma SetupFilesStep(d: Disk, name: string, moduleName: string)
    requires Valid(d) && '/' !in name
    requires CurrentDir in d.dirs && SourceDir in d.dirs && "./demo" in d.dirs
    ensures var (d1, o) := CreateFiles(d, GeneratedFiles(name, moduleName));
            && o == Done && Valid(d1) && d1.dirs == d.dirs && KeepsFiles(d, d1, {})
            && (forall i :: 0 <= i < |GeneratedPaths(name)| ==> Exists(d1, GeneratedPaths(name)[i]))
            && (forall i :: 0 <= i < |GeneratedPaths(name)| && !Exists(d, GeneratedPaths(name)[i]) ==>
                  d1.files[GeneratedPaths(name)[i]] == GeneratedFiles(name, moduleName)[i].1)
  {
    var entries := GeneratedFiles(name, moduleName);
    GeneratedFilesPaths(name, moduleName);
    GeneratedPathsPlaced(name);
    forall i | 0 <= i < |entries|
      ensures FirstEntry(entries, i)
    {
      GeneratedEntriesFirst(name, moduleName, i);
    }
    CreateFilesDone(d, entries);
  }

  /** The generated paths are pairwise different, whatever the name. */
  lemma GeneratedPathsDistinct(name: string)
    ensures forall i, j :: 0 <= i < j < |GeneratedPaths(name)| ==> GeneratedPaths(name)[i] != GeneratedPaths(name)[j]
  {
    var ps := GeneratedPaths(name);
    forall i, j | 0 <= i < j < |ps|
      ensures ps[i] != ps[j]
    {
      if i < 4 && 4 <= j {
        assert ps[j][0] == '.' && ps[j][1] == '/';
        assert ps[i][0] != '.' || ps[i][1] != '/';
      } else if i < 4 {
        assert |ps[i]| != |ps[j]|;
      } else if j == 6 || i == 6 {
        assert ps[i][2] != ps[j][2];
      } else if i == 4 && j == 5 {
        assert ps[i][|ps[i]| - 1] != ps[j][|ps[j]| - 1];
      } else if i == 4 {
        assert |ps[i]| != |ps[j]|;
      } else {
        assert ps[i][|ps[i]| - 1] != ps[j][|ps[j]| - 1];
      }
    }
  }

  /** On a tree holding a JSON manifest with no file in the way of a project
      directory, the first half of the setup completes. It leaves the project
      directories in place, the manifest patched with the fields of
      `setupReact`, both configurations present, and every other file that
      existed as it was. */
  lemma PrepareSucceeds(d: Disk)
    requires Valid(d) && Manifest in d.files && d.files[Manifest].JsonDoc?
    requires forall p :: p in ProjectDirs ==> p !in d.files
    ensures var (d1, o) := Prepare(d);
            && o == Done
            && Valid(d1)
            && (forall p :: p in ProjectDirs ==> p in d1.dirs)
            && ReadJson(d1, Manifest) == Ok(Patch(d.files[Manifest].doc, ManifestPatches))
            && Exists(d1, ".eslintrc") && Exists(d1, ".babelrc")
            && KeepsFiles(d, d1, {Manifest})
  {
    SetupDirectories(d);
    var d1 := CreateDirectories(d, ProjectDirs).0;
    SetupManifestStep(d1);
    var d2 := FixJsonAll(d1, Manifest, ManifestPatches).0;
    SetupConfigStep(d2);
  }

  /** With the project directories and a JSON manifest in place, and a
      component name without '/', the second half of the setup completes: it
      creates every generated path and the component tests, adds no directory
      and changes no existing file. */
  lemma GenerateSucceeds(d: Disk, name: string)
    requires Valid(d) && ReadJson(d, Manifest).Ok? && '/' !in name
    requires forall p :: p in ProjectDirs ==> p in d.dirs
    ensures var (d1, o) := Generate(d, name);
            && o == Done
            && Valid(d1) && d1.dirs == d.dirs && KeepsFiles(d, d1, {})
            && (forall i :: 0 <= i < |GeneratedPaths(name)| ==> Exists(d1, GeneratedPaths(name)[i]))
  {
    var moduleName := DisplayOrUndefined(Get(ReadJson(d, Manifest).value, "name"));
    assert "./src" in ProjectDirs && "./demo" in ProjectDirs && "./__tests__" in ProjectDirs;
    SetupFilesStep(d, name, moduleName);
    var d1 := CreateFiles(d, GeneratedFiles(name, moduleName)).0;
    GenerateComponentTestFilesKeeps(d1);
  }

  /** On a tree holding a JSON manifest, with no file in the way of a project
      directory and a component name without '/', the setup completes. It
      leaves the project directories in place, the manifest patched with the
      fields of `setupReact`, both configurations and every generated file
      present, and every other file that existed as it was. */
  lemma SetupSucceeds(d: Disk, name: string)
    requires Ready(d, name)
    ensures var (d1, o) := Setup(d, name);
            && o == Done
            && Valid(d1)
            && (forall p :: p in ProjectDirs ==> p in d1.dirs)
            && ReadJson(d1, Manifest) == Ok(Patch(d.files[Manifest].doc, ManifestPatches))
            && Exists(d1, ".eslintrc") && Exists(d1, ".babelrc")
            && (forall i :: 0 <= i < |GeneratedPaths(name)| ==> Exists(d1, GeneratedPaths(name)[i]))
            && KeepsFiles(d, d1, {Manifest})
  {
    PrepareSucceeds(d);
    var d1 := Prepare(d).0;
    GenerateSucceeds(d1, name);
  }

  /** The keys `setupReact` assigns in the manifest, in call order; no key
      is assigned twice. */
  function ManifestKeys(): (keys: seq<string>)
    ensures |keys| == |ManifestPatches|
    ensures forall i :: 0 <= i < |keys| ==> keys[i] == ManifestPatches[i].0
    ensures forall i, j :: 0 <= i < j < |keys| ==> keys[i] != keys[j]
  {
    var keys := seq(|ManifestPatches|, i requires 0 <= i < |ManifestPatches| => ManifestPatches[i].0);
    assert keys == ["version", "description", "repository", "jest", "scripts", "keywords", "license", "main"];
    keys
  }

  /** The values the manifest patch list leaves behind: version, license and
      entry point are fixed, and a key it does not assign keeps its value. */
  lemma ManifestPatchValues(doc: Document)
    ensures Get(Patch(doc, ManifestPatches), "version") == Some(Str("0.0.1"))
    ensures Get(Patch(doc, ManifestPatches), "license") == Some(Str("MIT"))
    ensures Get(Patch(doc, ManifestPatches), "main") == Some(Str("./lib/index.js"))
    ensures forall k :: k !in ManifestKeys() ==> Get(Patch(doc, ManifestPatches), k) == Get(doc, k)
  {
    ManifestAssigns("version", 0);
    GetPatch(doc, ManifestPatches, "version");
    ManifestAssigns("license", 6);
    GetPatch(doc, ManifestPatches, "license");
    ManifestAssigns("main", 7);
    GetPatch(doc, ManifestPatches, "main");
    forall k | k !in ManifestKeys()
      ensures Get(Patch(doc, ManifestPatches), k) == Get(doc, k)
    {
      GetPatch(doc, ManifestPatches, k);
      NotAssigned(ManifestPatches, k);
    }
  }

  /** The manifest key at `i` is assigned only there. */
  lemma ManifestAssigns(k: string, i: int)
    requires 0 <= i < |ManifestKeys()| && ManifestKeys()[i] == k
    ensures LastAssigned(ManifestPatches, k) == Some(ManifestPatches[i].1)
  {
    LastAssignedAt(ManifestPatches, k, i);
  }

  /** After a completed setup the manifest reads version "0.0.1", license
      "MIT" and entry point "./lib/index.js", and every key the setup does not
      assign (the package name among them) reads as before. */
  lemma SetupManifest(d: Disk, name: string)
    requires Ready(d, name)
    ensures var (d1, _) := Setup(d, name);
            var doc := d.files[Manifest].doc;
            && GetJsonValueByKey(d1, Manifest, "version") == Ok(Some(Str("0.0.1")))
            && GetJsonValueByKey(d1, Manifest, "license") == Ok(Some(Str("MIT")))
            && GetJsonValueByKey(d1, Manifest, "main") == Ok(Some(Str("./lib/index.js")))
            && (forall k :: k !in ManifestKeys() ==> GetJsonValueByKey(d1, Manifest, k) == Ok(Get(doc, k)))
  {
    SetupSucceeds(d, name);
    ManifestPatchValues(d.files[Manifest].doc);
  }

  /** A component name that passes the filter gets its test file from the
      same run: the setup writes `./src/{name}.tsx`, whose stem is `name`. */
  lemma SetupTestFile(d: Disk, name: string)
    requires Ready(d, name) && name != [] && IsComponent(name)
    ensures Exists(Setup(d, name).0, TestPath(name))
  {
    PrepareSucceeds(d);
    GenerateTestFile(Prepare(d).0, name);
  }

  /** The second half of the setup writes the test of the component it
      generates. */
  lemma GenerateTestFile(d: Disk, name: string)
    requires Valid(d) && ReadJson(d, Manifest).Ok? && '/' !in name
    requires forall p :: p in ProjectDirs ==> p in d.dirs
    requires name != [] && IsComponent(name)
    ensures Exists(Generate(d, name).0, TestPath(name))
  {
    var moduleName := DisplayOrUndefined(Get(ReadJson(d, Manifest).value, "name"));
    assert "./src" in ProjectDirs && "./demo" in ProjectDirs && "./__tests__" in ProjectDirs;
    SetupFilesStep(d, name, moduleName);
    var d1 := CreateFiles(d, GeneratedFiles(name, moduleName)).0;
    assert Exists(d1, GeneratedPaths(name)[4]);
    ComponentFileListed(d1, name);
    GenerateComponentTestFilesCreates(d1, name + ".tsx");
  }

  /** Once `./src/{name}.tsx` exists, the `./src` listing has an entry whose
      stem is `name`. */
  lemma ComponentFileListed(d: Disk, name: string)
    requires '/' !in name && name != []
    requires Exists(d, "./src/" + name + ".tsx")
    ensures name + ".tsx" in ReadDir(d, SourceDir) && Stem(name + ".tsx") == name
  {
    var file := name + ".tsx";
    assert '/' !in file;
    assert "./src/" + name + ".tsx" == SourceDir + "/" + file;
    ReadDirNames(d, SourceDir, file);
    assert file != ".." by {
      assert |file| >= 5;
    }
    StemOfNameWithExtension(name, ".tsx");
  }

  /** The first half of the setup changes nothing on a disk it already
      prepared. */
  lemma PrepareIdempotent(d: Disk, doc: Document)
    requires Valid(d) && UniqueKeys(doc)
    requires forall p :: p in ProjectDirs ==> p in d.dirs
    requires ReadJson(d, Manifest) == Ok(Patch(doc, ManifestPatches))
    requires Exists(d, ".eslintrc") && Exists(d, ".babelrc")
    ensures Prepare(d) == (d, Done)
  {
    CreateDirectoriesIdempotent(d, ProjectDirs);
    SetupManifestStep(d);
    PatchIdempotent(doc, ManifestPatches);
    assert d.files[Manifest := d.files[Manifest]] == d.files;
  }

  /** The second half of the setup changes nothing when run again. */
  lemma GenerateIdempotent(d: Disk, name: string)
    requires Valid(d) && ReadJson(d, Manifest).Ok? && '/' !in name
    requires forall p :: p in ProjectDirs ==> p in d.dirs
    ensures var d1 := Generate(d, name).0;
            Generate(d1, name) == (d1, Done)
  {
    var moduleName := DisplayOrUndefined(Get(ReadJson(d, Manifest).value, "name"));
    var entries := GeneratedFiles(name, moduleName);
    var d1 := CreateFiles(d, entries).0;
    var e := GenerateComponentTestFiles(d1).0;
    assert CreateFiles(d, entries).1 == Done && Valid(d1) && d1.dirs == d.dirs && KeepsFiles(d, d1, {})
        && (forall i :: 0 <= i < |GeneratedPaths(name)| ==> Exists(d1, GeneratedPaths(name)[i])) by {
      assert "./src" in ProjectDirs && "./demo" in ProjectDirs && "./__tests__" in ProjectDirs;
      SetupFilesStep(d, name, moduleName);
    }
    assert Generate(d, name) == GenerateComponentTestFiles(d1);
    GenerateComponentTestFilesKeeps(d1);
    GenerateComponentTestFilesIdempotent(d1);
    GenerateOnComplete(e, name, ReadJson(d, Manifest).value);
  }

  /** On a disk that already holds every generated file and every test, the
      second half of the setup finds nothing to do. */
  lemma GenerateOnComplete(e: Disk, name: string, doc: Document)
    requires ReadJson(e, Manifest) == Ok(doc)
    requires forall i :: 0 <= i < |GeneratedPaths(name)| ==> Exists(e, GeneratedPaths(name)[i])
    requires GenerateComponentTestFiles(e) == (e, Done)
    ensures Generate(e, name) == (e, Done)
  {
    var entries := GeneratedFiles(name, DisplayOrUndefined(Get(doc, "name")));
    GeneratedFilesPaths(name, DisplayOrUndefined(Get(doc, "name")));
    CreateFilesAllExist(e, entries);
  }

  /** Running the setup a second time changes nothing: every step finds its
      directory, manifest value or file already in place. */
  lemma SetupIdempotent(d: Disk, name: string)
    requires Ready(d, name) && UniqueKeys(d.files[Manifest].doc)
    ensures var (d1, _) := Setup(d, name);
            Setup(d1, name) == (d1, Done)
  {
    PrepareSucceeds(d);
    var p := Prepare(d).0;
    GenerateSucceeds(p, name);
    GenerateIdempotent(p, name);
    var e := Generate(p, name).0;
    assert ReadJson(e, Manifest) == ReadJson(p, Manifest);
    PrepareIdempotent(e, d.files[Manifest].doc);
  }

  /** Without a manifest the setup stops at the first `fixJSON`: the project
      directories are made, then reading `package.json` fails. */
  lemma SetupWithoutManifest(d: Disk, name: string)
    requires Valid(d) && !Exists(d, Manifest)
    requires forall p :: p in ProjectDirs ==> p !in d.files
    ensures Setup(d, name) == (CreateDirectories(d, ProjectDirs).0, Aborted(NoSuchFile(Manifest)))
  {
    SetupDirectories(d);
    CreateDirectoriesDone(d, ProjectDirs);
    assert Manifest !in ProjectDirs;
  }
}

=== FILE: strings.dfy ===
/** The few JavaScript string operations the scaffolder relies on:
    `lastIndexOf` for one character, `includes`, and the decimal text of an
    integer as produced by template-literal interpolation. */
module Strings {

  /** `s.lastIndexOf(c)`: the index of the last `c` in `s`, or -1. */
  function LastIndexOf(s: string, c: char): (i: int)
    ensures -1 <= i < |s|
    ensures 0 <= i ==> s[i] == c
    ensures forall j :: i < j < |s| ==> s[j] != c
  {
    if s == [] then -1
    else if s[|s| - 1] == c then |s| - 1
    else LastIndexOf(s[..|s| - 1], c)
  }

  /** `s.includes(sub)`: `sub` occurs in `s` as a contiguous substring. */
  predicate Contains(s: string, sub: string)
    decreases |s|
  {
    sub <= s || (s != [] && Contains(s[1..], sub))
  }

  /** `sub` occurs at position `i` of `s`. */
  ghost predicate OccursAt(s: string, sub: string, i: int)
  {
    0 <= i && i + |sub| <= |s| && s[i..i + |sub|] == sub
  }

  /** The recursive `Contains` agrees with the positional definition of a
      substring occurrence, in both directions. */
  lemma {:induction false} ContainsIffOccurs(s: string, sub: string)
    ensures Contains(s, sub) <==> exists i :: OccursAt(s, sub, i)
    decreases |s|
  {
    if sub <= s {
      assert OccursAt(s, sub, 0);
    } else if s != [] {
      ContainsIffOccurs(s[1..], sub);
      forall i | OccursAt(s[1..], sub, i)
        ensures OccursAt(s, sub, i + 1)
      {
        assert s[i + 1..i + 1 + |sub|] == s[1..][i..i + |sub|];
      }
      forall i | OccursAt(s, sub, i)
        ensures OccursAt(s[1..], sub, i - 1)
      {
        assert s[..|sub|] != sub;
        assert s[1..][i - 1..i - 1 + |sub|] == s[i..i + |sub|];
      }
    }
  }

  /** A string always includes any piece it is built around. */
  lemma ContainsInfix(prefix: string, sub: string, suffix: string)
    ensures Contains(prefix + sub + suffix, sub)
  {
    var s := prefix + sub + suffix;
    assert s[|prefix|..|prefix| + |sub|] == sub;
    assert OccursAt(s, sub, |prefix|);
    ContainsIffOccurs(s, sub);
  }

  /** The decimal digit character for `d`. */
  function DigitChar(d: nat): (c: char)
    requires d < 10
    ensures '0' <= c <= '9'
  {
    "0123456789"[d]
  }

  /** The value of a digit character. */
  function DigitValue(c: char): (d: nat)
    requires '0' <= c <= '9'
    ensures d < 10
  {
    (c as int - '0' as int) as nat
  }

  predicate IsDecimal(s: string)
  {
    |s| >= 1 && forall i :: 0 <= i < |s| ==> '0' <= s[i] <= '9'
  }

  /** The decimal text of `n` with no leading zero, as `String(n)` gives it. */
  function NatToDecimal(n: nat): (s: string)
    ensures IsDecimal(s)
    ensures s[0] != '0' || s == "0"
    decreases n
  {
    if n < 10 then [DigitChar(n)] else NatToDecimal(n / 10) + [DigitChar(n % 10)]
  }

  /** The number that a string of decimal digits denotes. */
  function DecimalValue(s: string): nat
    requires forall i :: 0 <= i < |s| ==> '0' <= s[i] <= '9'
    decreases |s|
  {
    if s == [] then 0 else 10 * DecimalValue(s[..|s| - 1]) + DigitValue(s[|s| - 1])
  }

  /** Reading back the decimal text of `n` gives `n`. */
  lemma {:induction false} DecimalRoundTrip(n: nat)
    ensures DecimalValue(NatToDecimal(n)) == n
    decreases n
  {
    var s := NatToDecimal(n);
    if n < 10 {
      assert "0123456789"[n] as int - '0' as int == n;
    } else {
      DecimalRoundTrip(n / 10);
      assert s[..|s| - 1] == NatToDecimal(n / 10);
      assert "0123456789"[n % 10] as int - '0' as int == n % 10;
    }
  }

  /** `String(n)` for an integer `n`, written as plain decimal digits. */
  function IntToDecimal(n: int): string
  {
    if n < 0 then "-" + NatToDecimal(-n) else NatToDecimal(n)
  }
}

=== FILE: templates.dfy ===
/** The fixed data the scaffolder writes: the directory list, the manifest
    fields, the ESLint and Babel configurations and the text templates of the
    generated files. Each template is a function of the component name only;
    which path it is written to is decided in `Scaffold`. */
module Templates {
  import opened Json
  import opened Strings

  /** A generated text file: which generator wrote it and the names it filled
      in. Its text is `Render` of it. */
  datatype Template =
    | Readme(componentName: string, moduleName: string)
    | Npmignore
    | WebpackConfig(name: string)
    | WebpackDemoConfig(name: string)
    | ComponentTsx(name: string)
    | IndexTs(name: string)
    | DemoHtml
    | DemoTsx(name: string)
    | ComponentTest(moduleName: string)

  /** The text each generator writes. */
  function Render(t: Template): string
  {
    match t
    case Readme(c, m) => ReadmeText(c, m)
    case Npmignore => NpmignoreText
    case WebpackConfig(n) => WebpackConfigText(n)
    case WebpackDemoConfig(n) => WebpackDemoConfigText(n)
    case ComponentTsx(n) => ComponentTsxText(n)
    case IndexTs(n) => IndexTsText(n)
    case DemoHtml => DemoHtmlText
    case DemoTsx(n) => DemoTsxText(n)
    case ComponentTest(m) => ComponentTestCode(m)
  }

  /** The directories every generated project has. */
  const ProjectDirs: seq<string> := ["./src", "./lib", "./demo", "./__tests__"]

  const Description: string :=
    "A React Component generated by starter-react-component ( https://www.npmjs.com/package/starter-react-component )."

  const Repository: Value := Obj([("type", Str("git")), ("url", Str("https://github.com"))])

  const JestConfig: Value := Obj([
    ("unmockedModulePathPatterns", Arr([
      Str("<rootDir>/node_modules/react"),
      Str("<rootDir>/node_modules/react-dom"),
      Str("<rootDir>/node_modules/react-addons-test-utils")])),
    ("transform", Obj([("^.+\\.(js|jsx|ts|tsx)$", Str("babel-jest"))])),
    ("moduleFileExtensions", Arr([Str("js"), Str("json"), Str("ts"), Str("tsx")]))])

  const Scripts: Value := Obj([
    ("start", Str("webpack-dev-server --config webpack.demo.config.js --progress --mode development")),
    ("build-demo", Str("webpack -p --config webpack.demo.config.js --progress --mode production")),
    ("build-component", Str("webpack -p --progress --mode production")),
    ("build", Str("npm run build-component && npm run build-demo")),
    ("prepublish", Str("npm run build")),
    ("test", Str("BABEL_JEST_STAGE=0 jest")),
    ("lint", Str("eslint 'src/**/*.{ts,tsx,js}' '__tests__/**/*.{ts,tsx,js}'")),
    ("fix", Str("eslint 'src/**/*.{ts,tsx,js}' '__tests__/**/*.{ts,tsx,js}' --fix"))])

  /** Stored under the manifest key "keywords" as it stands: an object that
      wraps the keyword array. */
  const Keywords: Value := Obj([("keywords", Arr([Str("React"), Str("ReactJS"), Str("TypeScript"), Str("UI")]))])

  /** The manifest assignments of `setupReact`, in the order it makes them. */
  const ManifestPatches: seq<(string, Value)> := [
    ("version", Str("0.0.1")),
    ("description", Str(Description)),
    ("repository", Repository),
    ("jest", JestConfig),
    ("scripts", Scripts),
    ("keywords", Keywords),
    ("license", Str("MIT")),
    ("main", Str("./lib/index.js"))]

  const EslintConfig: Document := [
    ("extends", Arr([
      Str("airbnb"), Str("airbnb/hooks"), Str("plugin:@typescript-eslint/recommended"),
      Str("plugin:jest/recommended"), Str("plugin:prettier/recommended"), Str("prettier"),
      Str("prettier/@typescript-eslint"), Str("prettier/react")])),
    ("parser", Str("@typescript-eslint/parser")),
    ("env", Obj([("browser", Bool(true)), ("jest", Bool(true))])),
    ("plugins", Arr([Str("prettier"), Str("jest")])),
    ("settings", Obj([
      ("import/resolver", Obj([
        ("node", Obj([("extensions", Arr([Str(".js"), Str(".jsx"), Str(".ts"), Str(".tsx")]))]))]))])),
    ("rules", Obj([
      ("@typescript-eslint/explicit-function-return-type", Str("off")),
      ("react/jsx-filename-extension", Arr([Num(1), Obj([("extensions", Arr([Str(".js"), Str(".ts"), Str(".tsx")]))])])),
      ("import/prefer-default-export", Str("off")),
      ("react/no-find-dom-node", Num(0)),
      ("class-methods-use-this", Str("off")),
      ("jsx-a11y/anchor-is-valid", Arr([
        Str("error"),
        Obj([
          ("components", Arr([Str("Link")])),
          ("specialLink", Arr([Str("to"), Str("hrefLeft"), Str("hrefRight")])),
          ("aspects", Arr([Str("noHref"), Str("invalidHref"), Str("preferButton")]))])])),
      ("import/extensions", Arr([
        Str("error"),
        Str("ignorePackages"),
        Obj([("js", Str("never")), ("jsx", Str("never")), ("ts", Str("never")), ("tsx", Str("never"))])]))]))]

  const BabelConfig: Document := [
    ("presets", Arr([
      Str("@babel/preset-react"),
      Arr([
        Str("@babel/preset-env"),
        Obj([("targets", Arr([
          Str("last 2 Chrome versions"), Str("last 2 Safari versions"), Str("last 2 Firefox versions"),
          Str("ie 11"), Str("cover 85% in US")]))])]),
      Str("@babel/preset-typescript")]))]

  /** generateReadme: the README of the generated package, naming the component and the npm module it installs from. */
  function ReadmeText(componentName: string, moduleName: string): string
  {
      "# " + componentName + "\n" +
      "\n" +
      "## Install\n" +
      "\n" +
      "    npm install " + moduleName + "\n" +
      "\n" +
      "## Usage\n" +
      "\n" +
      "    import { " + componentName + " } from '" + componentName + "';\n" +
      "\n" +
      "    const ParentComponent = () => (\n" +
      "      <div>\n" +
      "        <" + componentName + " />\n" +
      "      </div>\n" +
      "    );    \n"
  }

  /** generateNpmignore: what `npm publish` leaves out. */
  const NpmignoreText: string :=
      "\n" +
      "src/\n" +
      "__tests__/\n" +
      ".eslintrc\n" +
      ".babelrc\n" +
      "webpack.config.js\n" +
      "webpack.demo.config.js\n"

  /** generateWebpackConfig: the library build, exported under the component name. */
  function WebpackConfigText(name: string): string
  {
      "const webpack = require('webpack');\n" +
      "const path = require(\"path\");\n" +
      "\n" +
      "const config = {\n" +
      "  entry: {\n" +
      "    index: [\"./src/index.ts\"]\n" +
      "  },\n" +
      "  output: {\n" +
      "    path: __dirname + '/lib',\n" +
      "    filename: \"[name].js\",\n" +
      "    libraryTarget: \"umd\",\n" +
      "    library: \"" + name + "\",\n" +
      "  },\n" +
      "  resolve: {\n" +
      "    extensions: [\".mjs\", \".ts\", \".tsx\", \".js\", \".jsx\"]\n" +
      "  },  \n" +
      "  externals: {\n" +
      "   \"react\": {\n" +
      "      root: 'React',\n" +
      "      commonjs2: 'react',\n" +
      "      commonjs: 'react',\n" +
      "      amd: 'react'\n" +
      "    },\n" +
      "    \"react-dom\": {\n" +
      "      root: 'ReactDOM',\n" +
      "      commonjs: 'react-dom',\n" +
      "      commonjs2: 'react-dom',\n" +
      "      amd: 'react-dom'\n" +
      "    }\n" +
      "  },\n" +
      "  module: {\n" +
      "    rules: [\n" +
      "      {\n" +
      "        test: /.(ts|tsx|js|jsx)$/,\n" +
      "        exclude: /node_modules/,\n" +
      "        loader: \"babel-loader\"\n" +
      "      }\n" +
      "    ]\n" +
      "  }\n" +
      "};\n" +
      "\n" +
      "module.exports = config;\n"
  }

  /** generateWebpackDemoConfig: the demo build and dev server. */
  function WebpackDemoConfigText(name: string): string
  {
      "const webpack = require('webpack');\n" +
      "const path = require(\"path\");\n" +
      "\n" +
      "const config = {\n" +
      "  entry: {\n" +
      "    " + name + "Demo: [path.resolve(__dirname, \"./src/" + name + "Demo.tsx\")]\n" +
      "  },\n" +
      "  output: {\n" +
      "    path: path.resolve(__dirname, './demo'),\n" +
      "    filename: \"bundle.js\",\n" +
      "  },\n" +
      "  resolve: {\n" +
      "    extensions: [\".mjs\", \".ts\", \".tsx\", \".js\", \".jsx\"]\n" +
      "  },  \n" +
      "  module: {\n" +
      "    rules: [\n" +
      "      {\n" +
      "        test: /.(ts|tsx|js|jsx)$/,\n" +
      "        exclude: /node_modules/,\n" +
      "        loader: \"babel-loader\"\n" +
      "      }\n" +
      "    ]\n" +
      "  },\n" +
      "  devServer: {\n" +
      "    contentBase: \"./demo\",\n" +
      "    historyApiFallback: true,\n" +
      "    open: true\n" +
      "  },\n" +
      "\n" +
      "}\n" +
      "\n" +
      "  module.exports = config;\n"
  }

  /** generateIndexJS: the package entry point re-exporting the component. */
  function IndexTsText(name: string): string
  {
      "\n" +
      "export { default as " + name + "} from './" + name + "';\n"
  }

  /** generateDemoHtml: the demo page (the component name is not used). */
  const DemoHtmlText: string :=
      "<!DOCTYPE html>\n" +
      "<html lang=\"en\">\n" +
      "  <head>\n" +
      "    <meta charset=\"UTF-8\">\n" +
      "    <title>Title</title>\n" +
      "  </head>\n" +
      "  <body>\n" +
      "    <div id='root'></div>\n" +
      "    <script src=\"./bundle.js\"></script>\n" +
      "  </body>\n" +
      "</html>\n"

  /** generateDemoJS: the demo that renders the component. */
  function DemoTsxText(name: string): string
  {
      "import React from 'react';\n" +
      "import { render } from 'react-dom';\n" +
      "import " + name + " from './" + name + "';\n" +
      "\n" +
      "const " + name + "Demo = () => (\n" +
      "  <div>\n" +
      "    <h1>React Component Demo</h1>\n" +
      "    <" + name + " title=\"Hello\" />\n" +
      "  </div>\n" +
      ");\n" +
      "\n" +
      "render(<" + name + "Demo />, document.getElementById('root'));\n"
  }

  /** generateComponentFile: the component itself. */
  function ComponentTsxText(name: string): string
  {
      "import React from 'react';\n" +
      "import PropTypes from 'prop-types'; \n" +
      "\n" +
      "const " + name + " = ({ title = \"Hello\" }) => {\n" +
      "  return (\n" +
      "    <div>\n" +
      "      <h1 className=\"title\">{title}</h1>\n" +
      "      <div>World</div>\n" +
      "    </div>\n" +
      "  );\n" +
      "}\n" +
      "\n" +
      name + ".propTypes = {\n" +
      "  title: PropTypes.string.isRequired\n" +
      "}\n" +
      "\n" +
      "export default " + name + ";\n"
  }

  /** generateComponentTestCode: the Jest test for the component module
      `moduleName`: the imports, the import of the component, the test. */
  function ComponentTestCode(moduleName: string): string
  {
    TestImports + ComponentImport(moduleName) + TestBody(moduleName)
  }

  const TestImports: string :=
      "\n" +
      "import React from 'react';\n" +
      "import renderer from \"react-test-renderer\";\n"

  /** The line that imports the component under test from `./src`. */
  function ComponentImport(moduleName: string): string
  {
    "import " + moduleName + " from '../src/" + moduleName + "'"
  }

  function TestBody(moduleName: string): string
  {
      "\n" +
      "\n" +
      "test('Props is displayed', () => {\n" +
      "  const component = renderer.create(\n" +
      "    <" + moduleName + " title=\"Hello\" />\n" +
      "  );\n" +
      "  const instance = component.root;\n" +
      "  expect(\n" +
      "    instance.findByProps({ className: \"title\" }).children\n" +
      "  ).toEqual(\n" +
      "    [\"Hello\"]\n" +
      "  );\n" +
      "});\n"
  }

  /** The generated test imports the component under test from the module
      `../src/{moduleName}`, which is where the component file of that stem
      lies. */
  lemma ComponentTestImports(moduleName: string)
    ensures Contains(Render(ComponentTest(moduleName)), ComponentImport(moduleName))
  {
    ContainsInfix(TestImports, ComponentImport(moduleName), TestBody(moduleName));
  }
}

=== FILE: wrappers.dfy ===
/** Option and Result, used for JavaScript's `undefined` and for the errors
    that the filesystem calls throw. */
module Wrappers {

  datatype Option<+T> = None | Some(value: T)

  datatype Result<+T, +E> = Ok(value: T) | Err(error: E)
}
